=== FILE: README.md ===
# Blink Chat: a verified model of the chat application's state logic

This project is a functional Dafny model of the real-time chat application
"Blink Chat". The application has a React client with two zustand stores and
an Express server with a MongoDB store, a socket.io push channel and a
completion service that answers in an AI conversation. The model covers the
parts of the system that decide what is stored, shown, sent and pushed:

- **Client chat store** (`chat_store.dfy`, module `ChatStore`):
  - the message list and loading flags;
  - fetching the history;
  - sending a message, on the AI path and on the peer path;
  - appending pushed `newMessage` events;
  - the subscription count on the socket.
- **Client auth and presence store** (`auth_store.dfy`, module `AuthStore`):
  - the session check, signup, login, logout and profile update;
  - the one socket of the session;
  - the online roster pushed by the server.
- **AI reply pipeline** (`ai_controller.dfy`, module `AiController`):
  - the singleton AI user;
  - persisting the question, then calling the completion service, then persisting the answer;
  - the optional push to the asker's channel.

  The handler records its side effects in an effect trace, so ordering is provable.
- **Auth controller** (`auth_controller.dfy`, module `AuthController`):
  - signup validation order and identical login failures;
  - the three-attempt image upload with back-off;
  - the mapping from upload errors to HTTP statuses.
- **UI decisions**:
  - `sidebar.dfy`: the contact list filter, online count, highlight and empty notice;
  - `message_input.dfy`: the composer's send guard, form reset and image picker;
  - `chat_container.dfy`: the effect that fetches and subscribes, and the bubble side and avatar;
  - `profile_page.dfy`: file checks, resize arithmetic, error texts and preview reset.
- **Compositions** (`end_to_end.dfy`, module `EndToEnd`): the composer driving the store; the server's AI handler answering a client that also receives its push; the server's upload errors as the profile page reports them.
- **Shared modules**:
  - `domain.dfy`: users and messages;
  - `http.dfy`: an axios reply and the `catch` blocks that read `error.response.data.message`;
  - `server.dfy`: the server's user and message store;
  - `text.dfy`: `trim` and `startsWith`.

Every action is a pure function from the state before the call to the state
after it. Each awaited step is a transition, and the outside world comes in as
parameters:

- the server's answer to a request is a `Reply`;
- the completion service's answer is a `Completion`;
- the image host is a function from attempt number to outcome, and a rejected profile update in the user store is an optional error;
- password comparison is a function parameter;
- fresh ids, socket serials and clock readings are plain values.

A missing JavaScript string (`undefined`, `null` or `""`) is modelled as `""`.
A `catch` block that reads `error.response.data.message` on an error without a
response throws a `TypeError` itself; the model keeps that as a `threw` flag.

Behaviours of the code as written that the lemmas make explicit:

- **The AI answer is shown twice.** The server answers the request with the
  reply and also pushes it to the asker's channel, and the client appends both
  (`EndToEnd.AiReplyAppearsTwice`).
- **Listeners can pile up.** The conversation view unsubscribes only when its
  socket is connected at cleanup time. Any cleanup that runs while the
  transport is down leaves the listener in place. Suppose every cleanup
  between the drop and the next subscription runs while it is down; for
  example, the user switches conversation during the drop, leaves the view,
  and re-enters it after the reconnect. Then the next subscription duplicates
  every push (`ChatContainer.MissedCleanupDuplicatesPushes`). A cleanup that
  runs after the reconnect removes the leaked listener again. While the
  connection stays up, exactly one listener is kept
  (`ChatContainer.StableConnectionKeepsOneListener`).
- **Profile upload errors are reported as success.** `updateProfile` in the
  auth store reports server rejections itself and resolves. The profile page's
  status switch is therefore never reached for a server answer, and the page
  shows its success toast after the server's error
  (`ProfilePage.RejectedUploadStillReportsSuccess`,
  `EndToEnd.UploadErrorsReachPageAsSuccess`).
- **Logout can leave a socket behind.** `disconnectSocket` ignores a socket
  that is not connected. Logging out while the new socket is still connecting
  leaves it in the store (`AuthStore.LogoutWhileConnectingKeepsSocket`), and a
  dropped transport keeps the last roster (`AuthStore.DroppedTransportKeepsRoster`).
- **Two busy flags are never initialised.** The auth store's initial object
  spells them `isSigninUp` and `isLogginIng`, while the actions write
  `isSigningUp` and `isLoggingIn`. Those two flags therefore start out
  undefined, which the model reads as false.
- **A rejected send shows two toasts.** The store shows the server's message,
  then the composer shows its own (`EndToEnd.RejectedSendShowsTwoToasts`).
- **The login failure text has a typo.** It is spelt "Invalid Creadintials";
  the model keeps the spelling.

## Model

| member | source | states |
|---|---|---|
| `ChatStore.Initial` | frontend/src/store/useChatStore.js:7-12 | the store starts with no messages, no contacts, no selection and every loading flag off |
| `ChatStore.GetUsers` | frontend/src/store/useChatStore.js:14-24 | the flag is up while in flight; success replaces the contact list, failure keeps it and shows the server's message; the call rejects exactly when the error has no response; the flag is down afterwards and nothing else in the store changes |
| `ChatStore.LatestUsersFetchWins` | frontend/src/store/useChatStore.js:14-24 | after two contact fetches the list is the latest successful one (or the original), and the open conversation is untouched |
| `ChatStore.GetMessages` | frontend/src/store/useChatStore.js:26-36 | success replaces the message list with the fetched history, failure leaves it unchanged; `isMessagesLoading` is true in flight and false afterwards either way; a failure shows the server's message, and the call rejects exactly when the error has no response; nothing else in the store changes |
| `ChatStore.SendMessage` | frontend/src/store/useChatStore.js:37-86 | AI path: one optimistic entry (asker to AI, the text) is appended before the request, then the reply after it; a failure keeps the entry and rejects; nothing is emitted. Peer path: exactly the server's message is appended on success and the list is unchanged on failure; it is emitted exactly when a socket exists. A missing selection rejects without a request. `isAILoading` is false after every path, and only the message list and that flag ever change. A toast shows only for a failed request: the server's message or "Failed to send message" |
| `ChatStore.Subscribe` | frontend/src/store/useChatStore.js:88-97 | no socket: nothing happens; otherwise exactly one more `newMessage` listener and nothing else about the socket changes |
| `ChatStore.Unsubscribe` | frontend/src/store/useChatStore.js:99-104 | no socket: nothing happens; otherwise all `newMessage` listeners are removed and nothing else changes |
| `ChatStore.Deliver` | frontend/src/store/useChatStore.js:92-96 | a push is appended once per listener, at the end, with the earlier list and every other field unchanged |
| `ChatStore.SetSelectedUser` | frontend/src/store/useChatStore.js:106 | only the selection changes; the previous conversation's messages stay until a fetch replaces them |
| `ChatStore.PushesAppendInOrder` | frontend/src/store/useChatStore.js:92-96 | with one listener, any series of pushes is appended exactly, in arrival order, with no de-duplication |
| `ChatStore.PushesMultiplyByListeners` | frontend/src/store/useChatStore.js:88-96 | with k listeners the list grows by k times the number of pushes and its earlier part is kept |
| `ChatStore.FetchThenPushes` | frontend/src/store/useChatStore.js:26-36 | the fetched history replaces the previous list whatever it held; with one listener, later pushes follow the history in order |
| `ChatStore.DoubleSubscribeDuplicates` | frontend/src/store/useChatStore.js:88-97 | subscribing twice makes one push appear twice |
| `ChatStore.UnsubscribeSilences` | frontend/src/store/useChatStore.js:99-104 | after unsubscribing, a push changes nothing, however many subscriptions there were |
| `AuthStore.Initial` | frontend/src/store/useAuthStore.js:9-15 | no user, no socket, empty roster, session check pending, no other flag raised |
| `AuthStore.CheckAuth` | frontend/src/store/useAuthStore.js:16-28 | success stores the returned user, failure clears it, the checking flag is false afterwards, and nothing else (socket, roster, other flags) changes |
| `AuthStore.ConnectSocket` | frontend/src/store/useAuthStore.js:79-111 | no user: nothing changes; otherwise the store holds a new unconnected socket whose handshake carries the user's id, and the previous socket is closed exactly when it was connected; nothing but the socket changes |
| `AuthStore.ReceiveRoster` | frontend/src/store/useAuthStore.js:107-110 | the pushed roster replaces the list and nothing else changes |
| `AuthStore.DisconnectSocket` | frontend/src/store/useAuthStore.js:113-119 | a connected socket is closed and socket and roster are cleared; otherwise the state is unchanged |
| `AuthStore.Signup` | frontend/src/store/useAuthStore.js:29-41 | success stores the user and opens a socket for it, closes the previous socket exactly when it was connected, and leaves the rest of the store as it was; failure changes nothing but the flag, shows the server's message, and rejects exactly when the error has no response; the flag is down afterwards |
| `AuthStore.Login` | frontend/src/store/useAuthStore.js:42-55 | as signup: success stores the user then connects, closing a connected previous socket and keeping the rest of the store; failure only lowers the flag and shows the server's message |
| `AuthStore.Logout` | frontend/src/store/useAuthStore.js:57-66 | success clears the user, then, exactly when the socket was connected, closes that socket and clears socket and roster; nothing else changes; failure leaves the state unchanged and shows the server's message |
| `AuthStore.UpdateProfile` | frontend/src/store/useAuthStore.js:67-78 | success replaces the user silently, failure keeps it and shows the server's message; only the user and the flag change and no socket is closed; the flag is down afterwards; the promise rejects only for an error without a response |
| `AuthStore.LastRosterWins` | frontend/src/store/useAuthStore.js:107-110 | after any series of roster pushes the list is the last one received (snapshots, not deltas) and nothing else changed |
| `AuthStore.ReconnectClosesPrevious` | frontend/src/store/useAuthStore.js:84-105 | reconnecting with a live socket closes it and holds only the new one |
| `AuthStore.LogoutWhileConnectingKeepsSocket` | frontend/src/store/useAuthStore.js:57-62 | a logout right after login, before the socket connects, leaves that socket in the store with no user |
| `AuthStore.DroppedTransportKeepsRoster` | frontend/src/store/useAuthStore.js:113-119 | after a transport drop the roster stays and `disconnectSocket` does nothing |
| `AuthStore.CheckAuthGatesConnect` | frontend/src/store/useAuthStore.js:16-28 | after a failed session check `connectSocket` does nothing; after a successful one it opens a socket for the checked user |
| `AuthStore.SignupThenLogout` | frontend/src/store/useAuthStore.js:29-41 | signing up and logging out again, once connected, leaves no user, no socket and no roster, and closes exactly the socket the signup opened |
| `AiController.FirstAi` | backend/src/controller/ai.controller.js:13 | finds the first AI user, or reports that none exists |
| `AiController.GetOrCreateAiUser` | backend/src/controller/ai.controller.js:11-32 | an existing AI user is returned with nothing written; otherwise exactly one user is appended with the fixed AI name, email, picture and `isAI`; messages are never touched |
| `AiController.GetOrCreateIdempotent` | backend/src/controller/ai.controller.js:13-27 | a second call finds the user of the first call and writes nothing |
| `AiController.SingletonAiUser` | backend/src/controller/ai.controller.js:13-27 | a store with at most one AI user has exactly one afterwards |
| `AiController.RequestFor` | backend/src/controller/ai.controller.js:53-66 | the request is the fixed model, the fixed system instruction and the single user text, with 150 tokens at most |
| `AiController.Relay` | backend/src/controller/ai.controller.js:79-82 | one push to the recipient's registered channel, or none (and no error) when there is no channel |
| `AiController.HandleAiMessage` | backend/src/controller/ai.controller.js:35-89 | the question (asker to AI, the text) is always stored first and never rolled back; 201 exactly when the service returns an answer, in which case one more message is stored with sender and receiver swapped and returned; otherwise 500 and no answer stored |
| `AiController.TraceMatchesStore` | backend/src/controller/ai.controller.js:45-76 | the messages the trace reports as persisted are exactly the ones appended to the store, in order |
| `AiController.EffectOrder` | backend/src/controller/ai.controller.js:41-84 | the question is persisted before the single completion call; the answer is persisted before the push; there is at most one push, to the asker's registered channel, and it is the last effect |
| `AiController.StatelessCompletion` | backend/src/controller/ai.controller.js:53-66 | whatever the store holds, the same text yields the same completion request (no history) |
| `AuthController.Signup` | backend/src/controller/auth.controller.js:7-43 | checks run as presence, then password length (at least 6), then email lookup, each answering 400; 201 exactly when all pass; only then is one user appended and a public view without the password returned |
| `AuthController.SignupTwiceRejected` | backend/src/controller/auth.controller.js:18-19 | after a successful signup, a second signup with the same email is refused and writes nothing |
| `AuthController.Login` | backend/src/controller/auth.controller.js:44-67 | 200 exactly when the email exists and the password matches; every failure is the same 400 answer and issues no token; the store is unchanged |
| `AuthController.LoginFailuresIdentical` | backend/src/controller/auth.controller.js:47-54 | an unknown email and a wrong password produce identical answers |
| `AuthController.Backoffs` | backend/src/controller/auth.controller.js:123-130 | each listed wait is k*1000 ms for a failed attempt k, and the waits increase |
| `AuthController.BackoffsListEveryFailure` | backend/src/controller/auth.controller.js:123-130 | every attempt k that raised an error contributes its k*1000 ms wait |
| `AuthController.AttemptUpload` | backend/src/controller/auth.controller.js:87-132 | at most `retries` attempts; a URL is returned exactly when some attempt yields one, and it is the first such; an error on the last attempt propagates; back-off follows every earlier error |
| `AuthController.MapUploadError` | backend/src/controller/auth.controller.js:153-178 | timeout message or name gives 408, else image-host code 413 gives 413, else 400 gives 400, else 500, checked in that order |
| `AuthController.UpdateProfile` | backend/src/controller/auth.controller.js:77-179 | no picture: 400 with no upload. 200 exactly when some attempt yields a URL, the user update does not reject and the user exists; the URL is the first attempt's that succeeded, and only that user's picture changes. No URL gives 400, a missing user 404, a final upload error or a rejected user update its mapped status. The store is unchanged on every failure |
| `Sidebar.OnlineOnly` | frontend/src/components/Sidebar.jsx:119 | a user is kept exactly when its id is in the roster |
| `Sidebar.FilteredUsers` | frontend/src/components/Sidebar.jsx:117-121 | toggle off: all users; toggle on: exactly the users in the roster |
| `Sidebar.FilteredIsSubsequence` | frontend/src/components/Sidebar.jsx:117-121 | the listed users keep their order and are a subsequence of all users |
| `Sidebar.OnlineOnlyIsSubsequence` | frontend/src/components/Sidebar.jsx:119 | filtering keeps the original order |
| `Sidebar.OnlineOnlyKeepsMultiplicity` | frontend/src/components/Sidebar.jsx:119 | each online user appears as often as in the input, each offline user never |
| `Sidebar.OnlineCount` | frontend/src/components/Sidebar.jsx:124 | the count is never negative and is below the roster size unless the roster is empty |
| `Sidebar.OnlineCountExcludesSelf` | frontend/src/components/Sidebar.jsx:123-124 | with distinct ids including the viewer's, the count is the number of other online users |
| `Sidebar.AtMostOneSelected` | frontend/src/components/Sidebar.jsx:156 | with distinct ids, at most one item is highlighted |
| `Sidebar.HighlightFollowsSelection` | frontend/src/components/Sidebar.jsx:156 | after choosing a contact exactly the items with its id are highlighted; with no selection none is |
| `Sidebar.IsOnline` | frontend/src/components/Sidebar.jsx:157 | an item is marked online exactly when some roster entry equals its id |
| `Sidebar.EmptyNoticeIff` | frontend/src/components/Sidebar.jsx:163-171 | the notice shows exactly when the toggle is on and no listed user is online (or there are no users) |
| `MessageInput.HandleSendMessage` | frontend/src/components/MessageInput.jsx:33-55 | sends exactly when the button is enabled; sends the trimmed text with the preview and never an empty message; success clears the form, failure keeps it and shows an error; loading is false afterwards |
| `MessageInput.SubmitDisabled` | frontend/src/components/MessageInput.jsx:139 | the button is disabled exactly while sending, or when the text is whitespace only and there is no image |
| `MessageInput.SentTextIsTrimmed` | frontend/src/components/MessageInput.jsx:40-43 | the sent text has no whitespace at either end |
| `MessageInput.BlankTextNotSent` | frontend/src/components/MessageInput.jsx:35 | whitespace-only text with no image is never sent |
| `MessageInput.HandleImageChange` | frontend/src/components/MessageInput.jsx:14-26 | a non-image leaves the preview and shows an error. An image sets the preview to its data URL with no error, and only an image changes it. No file throws without showing an error |
| `MessageInput.RemoveImage` | frontend/src/components/MessageInput.jsx:28-31 | the preview is cleared and the text kept |
| `MessageInput.RemoveUndoesPick` | frontend/src/components/MessageInput.jsx:14-31 | picking a file and then removing the image equals just removing it: the text and flag stay, no preview remains |
| `MessageInput.AiConversationHidesImages` | frontend/src/components/MessageInput.jsx:64 | in the AI conversation neither the image controls nor the preview are shown |
| `ChatContainer.RunEffect` | frontend/src/components/ChatContainer.jsx:86-102 | no selected id: nothing at all; otherwise fetch that user's history, subscribe exactly when the socket is connected, install the cleanup |
| `ChatContainer.Mount` | frontend/src/components/ChatContainer.jsx:86-96 | the fetch replaces the list and the listener count grows by one exactly when the effect subscribed; the same socket (serial, handshake id, connection) is kept |
| `ChatContainer.Unmount` | frontend/src/components/ChatContainer.jsx:97-101 | the cleanup removes all listeners exactly when its socket is connected at cleanup time, and otherwise leaves the socket alone; the socket itself is never replaced or dropped |
| `ChatContainer.Switch` | frontend/src/components/ChatContainer.jsx:86-102 | picking a user with the same `_id` as the open one changes only the selection, since the effect's dependency is unchanged; on a real change the old listeners go exactly when the cleanup unsubscribes, the new effect adds at most one, and the list is the new selection's history when it fetched; the socket itself is kept |
| `ChatContainer.ReselectKeepsConversation` | frontend/src/components/ChatContainer.jsx:86-102 | re-picking the open contact keeps the list, pushed messages included, and the subscription; picking another contact refetches its history |
| `ChatContainer.StableConnectionKeepsOneListener` | frontend/src/components/ChatContainer.jsx:86-102 | over any series of selection changes on a connected socket there is one listener while a conversation is open and none otherwise |
| `ChatContainer.MissedCleanupDuplicatesPushes` | frontend/src/components/ChatContainer.jsx:92-101 | if every cleanup between a drop and the next subscription runs while the transport is down (switch during the drop, leave the view, re-enter after the reconnect), the first listener survives and the fresh mount adds a second: each push appears twice |
| `ChatContainer.BubbleSide` | frontend/src/components/ChatContainer.jsx:141 | end side exactly for the viewer's own messages |
| `ChatContainer.Avatar` | frontend/src/components/ChatContainer.jsx:151-155 | the viewer's or peer's picture matching the side, never empty, falling back to the placeholder |
| `ProfilePage.CheckFile` | frontend/src/pages/ProfilePage.jsx:60-74 | no file, then size over 1048576 bytes, then non-image type are refused, in that order; exactly 1 MiB is accepted |
| `ProfilePage.SizeCheckedFirst` | frontend/src/pages/ProfilePage.jsx:64-74 | an oversized file is refused as too large whatever its type, and a smaller file of an accepted file's type is accepted too |
| `ProfilePage.RoundDiv` | frontend/src/pages/ProfilePage.jsx:30 | the nearest integer to a/b, halves rounded up |
| `ProfilePage.Resize` | frontend/src/pages/ProfilePage.jsx:27-38 | small images unchanged; otherwise the longer side (height on ties) becomes 400 and the other the rounded proportional value |
| `ProfilePage.ResizeBounds` | frontend/src/pages/ProfilePage.jsx:27-38 | both sides end within 400 and neither grows; images within 400 are unchanged; the longer large side becomes 400 and the other is its rounded proportional value |
| `ProfilePage.ScaledSide` | frontend/src/pages/ProfilePage.jsx:30-35 | a proportionally scaled shorter side is at most 400 and at most its original |
| `ProfilePage.ErrorToast` | frontend/src/pages/ProfilePage.jsx:104-125 | statuses 408, 413, 400, 404 and the "Upload timeout" message each get their own text; everything else gets the generic one |
| `ProfilePage.PreviewAfterError` | frontend/src/pages/ProfilePage.jsx:128 | the preview resets to the user's picture, or to "/avatar.png" when there is none |
| `ProfilePage.HandleImageUpload` | frontend/src/pages/ProfilePage.jsx:60-130 | refused files change nothing and show the matching text (no file: none). An encoding failure sends nothing and resets the preview. An accepted, encoded file is always sent, and the store's update decides the auth state. When the store's catch itself throws, the preview resets and the generic text shows. Otherwise the preview is the encoded image and the success text comes last, after the server's message if any |
| `ProfilePage.ServerStatusNeverReachesSwitch` | frontend/src/pages/ProfilePage.jsx:87-125 | for a server rejection, none of the status-specific texts is ever shown |
| `ProfilePage.RejectedUploadStillReportsSuccess` | frontend/src/pages/ProfilePage.jsx:87-96 | a server rejection shows the server's message, then the success text, and keeps the local preview |
| `EndToEnd.ComposeAndSend` | frontend/src/components/MessageInput.jsx:33-55 | the store is called exactly when the button is enabled, with the trimmed text; the composer clears exactly when the store's call resolves and shows an error exactly when it rejects |
| `EndToEnd.RejectedSendShowsTwoToasts` | frontend/src/store/useChatStore.js:79-82 | a peer message the server rejects shows the server's text and then the composer's, and the typed text stays |
| `EndToEnd.AcceptedSendLandsOnce` | frontend/src/store/useChatStore.js:67-78 | a stored peer message lands once, is emitted when a socket exists, and the composer is cleared |
| `EndToEnd.AiReplyAppearsTwice` | backend/src/controller/ai.controller.js:78-84 | the answer is returned with 201 and pushed to the asker, so a client with one listener shows it twice after its optimistic entry |
| `EndToEnd.AiExchangeSides` | frontend/src/components/ChatContainer.jsx:141 | in the AI conversation the question is on the end side and the stored answer on the start side |
| `EndToEnd.AiExchangeAvatars` | frontend/src/components/ChatContainer.jsx:151-155 | in the AI conversation the asker's entry shows the asker's picture and the answer the AI user's, the fixed AI avatar when the handler created that user |
| `EndToEnd.UploadCodesHavePageTexts` | frontend/src/pages/ProfilePage.jsx:104-120 | every status the server's upload error mapping produces, except 500, has its own text on the page |
| `EndToEnd.UploadErrorsReachPageAsSuccess` | backend/src/controller/auth.controller.js:153-178 | whatever the server's upload error, the page shows the server's message and then the success text, and the stored user is unchanged |
| `Http.ReportError` | frontend/src/store/useChatStore.js:79-81 | the catch block throws exactly when the error has no response. Otherwise it shows the server's message, or the fallback when the body has none |
| `Server.Append` | backend/src/controller/ai.controller.js:45-50 | a saved message goes at the end of the log, users untouched |
| `Server.FindByEmail` | backend/src/controller/auth.controller.js:18 | finds the first user with the email, or reports that none has it |
| `Server.FindById` | backend/src/controller/auth.controller.js:142-146 | finds the user with the id, or reports that none has it |
| `Domain.PicOrDefault` | frontend/src/components/ChatContainer.jsx:153-155 | never empty; the user's picture when it has one, "/avatar.png" otherwise |
| `Text.Trim` | frontend/src/components/MessageInput.jsx:35 | no whitespace at either end of the result |
| `Text.TrimEmptyIffBlank` | frontend/src/components/MessageInput.jsx:35 | the trimmed text is empty exactly when the text is all whitespace |
| `Text.TrimIdempotent` | frontend/src/components/MessageInput.jsx:41 | trimming twice is trimming once |

## Left out

- backend/src/index.js: the Express, CORS, static files and listen wiring is plumbing. index.js mounts only `/api/auth` and `/api/messages` (lines 35-36), not the AI router. Whether some other file mounts it is outside this model. The model treats `handleAIMessage` as reachable.
- backend/src/lib/cloudinary.js and backend/src/routes/ai.routes.js: configuration and a single route binding.
- frontend/src/components/Navbar.jsx: rendering only.
- The `logout` and `checkAuth` controllers (backend/src/controller/auth.controller.js:68-76, 180-187): they only clear a cookie or echo the authenticated user, and cookies and the auth middleware are not modelled.
- The `lib/socket.js` registry is not part of this model. Only its lookup (`getReceiverSocketId`) appears, as a map from user id to channel. Registration and removal are not modelled.
- The message controller and routes are not part of this model. The peer path's server answer is an input to `ChatStore.SendMessage`.
- bcrypt, JWT cookies, Mongoose, Groq, Cloudinary, axios and socket.io are external. They are represented only by their outcomes as parameters.
- The 500 answers for store failures in `signup` and `login` (backend/src/controller/auth.controller.js:39-42, 63-66) are not modelled: the store never fails. Signup's "Invalid user data" branch is not modelled either, because a freshly constructed document is always truthy.
- Exceptions thrown by `getOrCreateAIUser` or `save` land in the same 500 handler as a failed completion. The model only produces that 500 for the completion failures.
- Canvas and FileReader encoding, JPEG quality (a float) and the real-time back-off delays are left out. Back-off is a computed list of integers. `Math.round` is modelled only for the positive operands the resize uses.
- Concurrency between async handlers is not modelled; each awaited step is one sequential transition. The push of the AI answer is assumed to arrive after the HTTP answer. In the other order the list differs only in position, and the answer still appears twice.
- Toasts are modelled as strings. The loading toast and its dismissal are left out.
- `IsSpace` covers ASCII whitespace plus NBSP, LS, PS, BOM, VT and FF, not every Unicode space separator that `trim` removes.
- `ProfilePage.HandleImageUpload` takes the page's `authUser` as a present user. The page is rendered only for a logged-in user, so the `authUser.profilePic` read on a null user is not modelled. The `response?.profilePic` preview update is never taken, because the store resolves to undefined.
- `AuthController.Signup`: the password length is counted in characters (code points), not in the UTF-16 code units that JavaScript's `.length` counts. A password of three astral-plane characters (three U+1F600, `.length` 6) is accepted by the code but refused by the model.
- `AuthController.Login`: a missing field is modelled as `""`. In the code, a login without a password makes the bcrypt comparison of `undefined` reject, and the catch block answers 500. The model gives the 400 invalid-credentials answer instead.
- `AuthController.NewUserPic`: user.model.js is not part of this model, so the schema's default `profilePic` is taken to be the empty string, which the client turns into the placeholder avatar.
- `Sidebar.OnlineCount`: states only the bound and, through `Sidebar.OnlineCountExcludesSelf`, the meaning for a duplicate-free roster containing the viewer, not `max(0, n - 1)` for every roster.
- `Text.Trim`: its own contract states only that the ends are not whitespace. The full prefix and suffix characterisation is on `Text.TrimStart` and `Text.TrimEnd`, and the emptiness characterisation is in `Text.TrimEmptyIffBlank`.
- The success toast's party-popper emoji is written as the Unicode code point U+1F389.

=== FILE: ai_controller.dfy ===
/**
  The AI reply pipeline: resolve (or lazily create) the single AI
  participant, persist the requester's message, ask the text-completion
  service for a reply, persist the reply and push it to the requester's live
  channel if one is registered. The store, the completion service and the
  connection registry are inputs; the handler's observable behaviour is its
  final store, its HTTP response and the ordered trace of its side effects.
*/
module AiController {
  import opened Domain
  import opened Server

  const AiEmail: string := "blinkchat@ai.com"
  const AiFullName: string := "Blink Chat AI"
  const AiPassword: string := "ai_password_placeholder"
  const AiProfilePic: string := "/ai-avatar.png"

  const CompletionModel: string := "allam-2-7b"
  const SystemPrompt: string := "You are Blink Chat AI, a friendly and helpful AI assistant. Keep your responses casual, fun, and engaging. Be concise but informative."
  const MaxTokens: nat := 150

  datatype Role = SystemRole | UserRole
  datatype Turn = Turn(role: Role, content: string)
  datatype CompletionRequest = CompletionRequest(model: string, turns: seq<Turn>, maxTokens: nat)

  /** The completion service's answer: the contents of the returned choices,
      or a failure (unavailable, timed out, rate limited, ...). */
  datatype Completion = Choices(contents: seq<string>) | ServiceFailed

  /** A socket id as held by the connection registry. */
  type Channel = string

  /** One observable side effect of the handler, in the order it happens. */
  datatype Effect =
    | Created(user: User)
    | Persisted(message: Message)
    | Called(request: CompletionRequest)
    | Pushed(channel: Channel, message: Message)

  datatype AiUser = AiUser(db: Db, user: User, created: bool)

  datatype AiResult = AiResult(db: Db, response: Response, effects: seq<Effect>)

  /** The record `getOrCreateAIUser` creates. */
  function NewAiUser(id: Id): User
  {
    User(id, AiFullName, AiEmail, AiProfilePic, true)
  }

  /** Index of the first AI user (`findOne({isAI: true})`). */
  function FirstAi(users: seq<UserRecord>): (r: Option<nat>)
    ensures r.Some? ==> r.value < |users| && users[r.value].user.isAI
    ensures r.Some? ==> forall j :: 0 <= j < r.value ==> !users[j].user.isAI
    ensures r.None? <==> forall j :: 0 <= j < |users| ==> !users[j].user.isAI
    decreases |users|
  {
    if |users| == 0 then None
    else if users[0].user.isAI then Some(0)
    else match FirstAi(users[1..])
      case None => None
      case Some(k) => Some(k + 1)
  }

  /** Number of AI users in the store. */
  function CountAi(users: seq<UserRecord>): nat
    decreases |users|
  {
    if |users| == 0 then 0 else CountAi(users[..|users| - 1]) + (if users[|users| - 1].user.isAI then 1 else 0)
  }

  /** `getOrCreateAIUser`: an existing AI user is returned and nothing is
      written; otherwise exactly one AI user with the fixed identity is
      created (with the fresh id the store assigns). Messages are never
      touched. */
  function GetOrCreateAiUser(db: Db, freshId: Id): (r: AiUser)
    ensures r.user.isAI
    ensures r.db.messages == db.messages
    ensures FirstAi(db.users).Some? ==>
      !r.created && r.db == db && r.user == db.users[FirstAi(db.users).value].user
    ensures FirstAi(db.users).None? ==>
      && r.created
      && r.db.users == db.users + [UserRecord(r.user, AiPassword)]
      && r.user.id == freshId && r.user.email == AiEmail && r.user.fullName == AiFullName
      && r.user.profilePic == AiProfilePic
  {
    match FirstAi(db.users)
    case Some(i) => AiUser(db, db.users[i].user, false)
    case None =>
      var u := NewAiUser(freshId);
      AiUser(db.(users := db.users + [UserRecord(u, AiPassword)]), u, true)
  }

  lemma CountAiAppend(users: seq<UserRecord>, x: UserRecord)
    ensures CountAi(users + [x]) == CountAi(users) + (if x.user.isAI then 1 else 0)
  {
  }

  lemma {:induction false} NoAiMeansZero(users: seq<UserRecord>)
    requires forall j :: 0 <= j < |users| ==> !users[j].user.isAI
    ensures CountAi(users) == 0
    decreases |users|
  {
    if |users| > 0 {
      NoAiMeansZero(users[..|users| - 1]);
    }
  }

  /** Sequential calls are idempotent: a second call finds the user the
      first one returned (or created) and changes nothing. */
  lemma GetOrCreateIdempotent(db: Db, id1: Id, id2: Id)
    ensures var a := GetOrCreateAiUser(db, id1);
            var b := GetOrCreateAiUser(a.db, id2);
            b.db == a.db && b.user == a.user && !b.created
  {
    var a := GetOrCreateAiUser(db, id1);
    if a.created {
      var k := |db.users|;
      assert a.db.users[k].user.isAI;
      assert FirstAi(a.db.users).Some?;
      assert FirstAi(a.db.users).value == k;
    }
  }

  /** The singleton invariant: a store with at most one AI user has exactly
      one after `getOrCreateAIUser`. */
  lemma SingletonAiUser(db: Db, freshId: Id)
    requires CountAi(db.users) <= 1
    ensures CountAi(GetOrCreateAiUser(db, freshId).db.users) == 1
  {
    var r := GetOrCreateAiUser(db, freshId);
    if r.created {
      NoAiMeansZero(db.users);
      CountAiAppend(db.users, UserRecord(r.user, AiPassword));
    } else {
      var i := FirstAi(db.users).value;
      if CountAi(db.users) == 0 {
        CountAiPositive(db.users, i);
      }
    }
  }

  lemma {:induction false} CountAiPositive(users: seq<UserRecord>, i: nat)
    requires i < |users| && users[i].user.isAI
    ensures CountAi(users) >= 1
    decreases |users|
  {
    if i < |users| - 1 {
      CountAiPositive(users[..|users| - 1], i);
    }
  }

  /** The completion request: the fixed system instruction and the single
      user text, bounded output, no conversation history. */
  function RequestFor(text: string): (r: CompletionRequest)
    ensures r.turns == [Turn(SystemRole, SystemPrompt), Turn(UserRole, text)]
    ensures r.maxTokens == 150 && r.model == CompletionModel
  {
    CompletionRequest(CompletionModel, [Turn(SystemRole, SystemPrompt), Turn(UserRole, text)], MaxTokens)
  }

  /** Live push of a persisted message to a recipient: one push to the
      registered channel, or none (and no error) when the recipient has no
      channel. */
  function Relay(registry: map<Id, Channel>, recipient: Id, m: Message): (r: seq<Effect>)
    ensures |r| <= 1
    ensures |r| == 1 <==> recipient in registry
    ensures |r| == 1 ==> r[0] == Pushed(registry[recipient], m)
  {
    if recipient in registry then [Pushed(registry[recipient], m)] else []
  }

  const InternalError: Response := Response(500, ErrorJson("Internal server error"))

  /** `handleAIMessage` for the authenticated `requester` and the posted
      `text`. `freshAiId` is the id the store would give a newly created AI
      user; `sentAt` and `repliedAt` are the creation times the store stamps
      on the two messages. */
  function HandleAiMessage(
    db: Db, requester: Id, text: string, sentAt: int, repliedAt: int, freshAiId: Id,
    completion: Completion, registry: map<Id, Channel>): (r: AiResult)
    ensures |r.db.messages| > |db.messages|
    ensures r.db.messages[..|db.messages|] == db.messages
    ensures r.db.users == GetOrCreateAiUser(db, freshAiId).db.users
    ensures r.db.messages[|db.messages|].senderId == requester
    ensures r.db.messages[|db.messages|].receiverId == GetOrCreateAiUser(db, freshAiId).user.id
    ensures r.db.messages[|db.messages|].text == text
    // success: exactly two messages, the reply with sender and receiver swapped, answered with 201
    ensures completion.Choices? && |completion.contents| > 0 <==> r.response.status == 201
    ensures r.response.status == 201 ==>
      && |r.db.messages| == |db.messages| + 2
      && r.db.messages[|db.messages| + 1].senderId == r.db.messages[|db.messages|].receiverId
      && r.db.messages[|db.messages| + 1].receiverId == requester
      && r.db.messages[|db.messages| + 1].text == completion.contents[0]
      && r.response.body == MessageJson(r.db.messages[|db.messages| + 1])
    // failure: the requester's message stays, no reply, 500
    ensures r.response.status != 201 ==>
      |r.db.messages| == |db.messages| + 1 && r.response == InternalError
  {
    var ai := GetOrCreateAiUser(db, freshAiId);
    var created := if ai.created then [Created(ai.user)] else [];
    var (db1, userMsg) := Append(ai.db, Message(Temp(0), requester, ai.user.id, text, None, sentAt));
    var prefix := created + [Persisted(userMsg), Called(RequestFor(text))];
    if completion.ServiceFailed? || |completion.contents| == 0 then
      // a failed call, or reading `choices[0]` of an empty answer, lands in the catch
      AiResult(db1, InternalError, prefix)
    else
      var (db2, aiMsg) := Append(db1, Message(Temp(0), ai.user.id, requester, completion.contents[0], None, repliedAt));
      AiResult(db2, Response(201, MessageJson(aiMsg)), prefix + [Persisted(aiMsg)] + Relay(registry, requester, aiMsg))
  }

  /** The persisted messages named by a trace, in trace order. */
  function PersistedIn(effects: seq<Effect>): seq<Message>
    decreases |effects|
  {
    if effects == [] then []
    else (if effects[0].Persisted? then [effects[0].message] else []) + PersistedIn(effects[1..])
  }

  lemma {:induction false} PersistedInAppend(a: seq<Effect>, b: seq<Effect>)
    ensures PersistedIn(a + b) == PersistedIn(a) + PersistedIn(b)
    decreases |a|
  {
    if a == [] {
      assert a + b == b;
    } else {
      PersistedInAppend(a[1..], b);
      assert (a + b)[0] == a[0];
      assert (a + b)[1..] == a[1..] + b;
    }
  }

  /** The trace and the store agree: the messages the handler reports as
      persisted are exactly the ones appended to the log, in the same order. */
  lemma TraceMatchesStore(
    db: Db, requester: Id, text: string, sentAt: int, repliedAt: int, freshAiId: Id,
    completion: Completion, registry: map<Id, Channel>)
    ensures var r := HandleAiMessage(db, requester, text, sentAt, repliedAt, freshAiId, completion, registry);
            PersistedIn(r.effects) == r.db.messages[|db.messages|..]
  {
    var r := HandleAiMessage(db, requester, text, sentAt, repliedAt, freshAiId, completion, registry);
    var ai := GetOrCreateAiUser(db, freshAiId);
    var created := if ai.created then [Created(ai.user)] else [];
    var userMsg := r.db.messages[|db.messages|];
    var call := Called(RequestFor(text));
    PersistedInAppend(created, [Persisted(userMsg), call]);
    assert [Persisted(userMsg), call][1..] == [call];
    assert PersistedIn([call]) == [] by {
      assert [call][1..] == [];
    }
    assert PersistedIn([Persisted(userMsg), call]) == [userMsg];
    var prefix := created + [Persisted(userMsg), call];
    assert PersistedIn(prefix) == [userMsg];
    if r.response.status == 201 {
      var aiMsg := r.db.messages[|db.messages| + 1];
      var pushes := Relay(registry, requester, aiMsg);
      PersistedInAppend(prefix, [Persisted(aiMsg)]);
      PersistedInAppend(prefix + [Persisted(aiMsg)], pushes);
      assert PersistedIn(pushes) == [];
      assert r.effects == prefix + [Persisted(aiMsg)] + pushes;
      assert r.db.messages[|db.messages|..] == [userMsg, aiMsg];
    } else {
      assert r.effects == prefix;
      assert r.db.messages[|db.messages|..] == [userMsg];
    }
  }

  /** Ordering: the requester's message is persisted before the completion
      service is called, and the reply is persisted before it is pushed.
      There is exactly one completion call and at most one push, addressed to
      the requester's registered channel. */
  lemma EffectOrder(
    db: Db, requester: Id, text: string, sentAt: int, repliedAt: int, freshAiId: Id,
    completion: Completion, registry: map<Id, Channel>)
    ensures var r := HandleAiMessage(db, requester, text, sentAt, repliedAt, freshAiId, completion, registry);
            var k := |r.effects|;
            var c := if GetOrCreateAiUser(db, freshAiId).created then 1 else 0;
            && k >= c + 2
            && r.effects[c] == Persisted(r.db.messages[|db.messages|])
            && r.effects[c + 1] == Called(RequestFor(text))
            && (forall j :: 0 <= j < k && j != c + 1 ==> !r.effects[j].Called?)
            && (r.response.status == 201 ==> k >= c + 3 && r.effects[c + 2] == Persisted(r.db.messages[|db.messages| + 1]))
            && (forall j :: 0 <= j < k && r.effects[j].Pushed? ==>
                  && r.response.status == 201 && j == c + 3 && j == k - 1
                  && requester in registry
                  && r.effects[j] == Pushed(registry[requester], r.db.messages[|db.messages| + 1]))
            && (r.response.status == 201 && requester in registry ==> k == c + 4 && r.effects[c + 3].Pushed?)
  {
  }

  /** The completion call carries no history: whatever the store holds, the
      same text yields the same request. */
  lemma StatelessCompletion(
    db1: Db, db2: Db, requester1: Id, requester2: Id, text: string, sentAt: int, repliedAt: int, freshAiId: Id,
    completion: Completion, registry: map<Id, Channel>)
    ensures var r1 := HandleAiMessage(db1, requester1, text, sentAt, repliedAt, freshAiId, completion, registry);
            var r2 := HandleAiMessage(db2, requester2, text, sentAt, repliedAt, freshAiId, completion, registry);
            forall i, j :: 0 <= i < |r1.effects| && 0 <= j < |r2.effects| && r1.effects[i].Called? && r2.effects[j].Called? ==>
              r1.effects[i] == r2.effects[j]
  {
  }
}

=== FILE: auth_controller.dfy ===
/**
  The authentication controller: signup and login validation, and the
  profile-picture update with its bounded upload retry loop and the mapping
  from upload errors to HTTP statuses. Password hashing, token issuing and
  the image host are inputs: a hash string, the id a token is issued for, and
  a function from attempt number to upload outcome.
*/
module AuthController {
  import opened Domain
  import opened Server

  datatype SignupBody = SignupBody(fullName: string, email: string, password: string)

  /** A controller's effect: the store afterwards, the response, and the user
      a session token was issued for (if any). */
  datatype Outcome = Outcome(db: Db, response: Response, token: Option<Id>)

  const MinPasswordLength: nat := 6

  /** The picture a new user starts with; user.model.js is not part of this
      model, so the schema default is taken to be empty. */
  const NewUserPic: string := ""

  const MissingFields: Response := Response(400, ErrorJson("All fields are Required"))
  const ShortPassword: Response := Response(400, ErrorJson("Password must be atleast 6 characters"))
  const EmailTaken: Response := Response(400, ErrorJson("Email already exists"))
  const InvalidCredentials: Response := Response(400, ErrorJson("Invalid Creadintials"))

  predicate AllPresent(b: SignupBody) {
    b.fullName != "" && b.email != "" && b.password != ""
  }

  /** `signup`. `hash` is what bcrypt makes of the password and `freshId` the
      id the store gives the new user. The checks run in a fixed order:
      presence, then password length, then the email lookup. */
  function Signup(db: Db, b: SignupBody, hash: string, freshId: Id): (r: Outcome)
    ensures !AllPresent(b) ==> r.response == MissingFields
    ensures AllPresent(b) && |b.password| < MinPasswordLength ==> r.response == ShortPassword
    ensures AllPresent(b) && |b.password| >= MinPasswordLength && FindByEmail(db.users, b.email).Some? ==>
      r.response == EmailTaken
    ensures r.response.status == 201 <==>
      AllPresent(b) && |b.password| >= MinPasswordLength && FindByEmail(db.users, b.email).None?
    ensures r.response.status != 201 ==> r.response.status == 400 && r.db == db && r.token.None?
    ensures r.response.status == 201 ==>
      && r.db.messages == db.messages
      && r.db.users == db.users + [UserRecord(User(freshId, b.fullName, b.email, NewUserPic, false), hash)]
      && r.response.body == SignupJson(PublicUser(freshId, b.fullName, b.email, NewUserPic))
      && r.token == Some(freshId)
  {
    if !AllPresent(b) then Outcome(db, MissingFields, None)
    else if |b.password| < MinPasswordLength then Outcome(db, ShortPassword, None)
    else if FindByEmail(db.users, b.email).Some? then Outcome(db, EmailTaken, None)
    else
      var u := User(freshId, b.fullName, b.email, NewUserPic, false);
      Outcome(db.(users := db.users + [UserRecord(u, hash)]), Response(201, SignupJson(Public(u))), Some(freshId))
  }

  /** Once a signup succeeds, signing up again with the same email is
      refused and creates nobody. */
  lemma SignupTwiceRejected(db: Db, b: SignupBody, hash: string, id: Id, b2: SignupBody, hash2: string, id2: Id)
    requires Signup(db, b, hash, id).response.status == 201
    requires AllPresent(b2) && |b2.password| >= MinPasswordLength && b2.email == b.email
    ensures var db1 := Signup(db, b, hash, id).db;
            Signup(db1, b2, hash2, id2) == Outcome(db1, EmailTaken, None)
  {
    var db1 := Signup(db, b, hash, id).db;
    assert db1.users[|db.users|].user.email == b2.email;
  }

  /** `login`: `verify` is bcrypt's comparison of a password with a stored
      hash. An unknown email and a wrong password give the same answer. */
  function Login(db: Db, email: string, password: string, verify: (string, string) -> bool): (r: Outcome)
    ensures r.db == db
    ensures r.response.status == 200 <==>
      FindByEmail(db.users, email).Some? && verify(password, db.users[FindByEmail(db.users, email).value].passwordHash)
    ensures r.response.status == 200 ==>
      var u := db.users[FindByEmail(db.users, email).value].user;
      r.response.body == LoginJson(Public(u), "Logged in Successfully") && r.token == Some(u.id)
    ensures r.response.status != 200 ==> r.response == InvalidCredentials && r.token.None?
  {
    match FindByEmail(db.users, email)
    case None => Outcome(db, InvalidCredentials, None)
    case Some(i) =>
      if !verify(password, db.users[i].passwordHash) then Outcome(db, InvalidCredentials, None)
      else Outcome(db, Response(200, LoginJson(Public(db.users[i].user), "Logged in Successfully")), Some(db.users[i].user.id))
  }

  /** The two login failures cannot be told apart by the caller. */
  lemma LoginFailuresIdentical(db1: Db, db2: Db, email1: string, email2: string, pw1: string, pw2: string,
                               verify: (string, string) -> bool)
    requires FindByEmail(db1.users, email1).None?
    requires FindByEmail(db2.users, email2).Some?
    requires !verify(pw2, db2.users[FindByEmail(db2.users, email2).value].passwordHash)
    ensures Login(db1, email1, pw1, verify).response == Login(db2, email2, pw2, verify).response
    ensures Login(db1, email1, pw1, verify).token == Login(db2, email2, pw2, verify).token == None
  {
  }

  /** An error raised by the image host: its `message`, `name` and
      `http_code`. */
  datatype ErrorShape = ErrorShape(message: string, name: string, httpCode: Option<int>)

  /** One upload call: a result object (`secureUrl` is "" when the result is
      empty or has no `secure_url`), or an error. */
  datatype UploadOutcome = Uploaded(secureUrl: string) | UploadFailed(error: ErrorShape)

  predicate Succeeds(o: UploadOutcome) {
    o.Uploaded? && o.secureUrl != ""
  }

  /** What `attemptUpload` resolves to: the first result with a URL,
      undefined, or the error of the last attempt. */
  datatype AttemptResult = Url(url: string) | NoUrl | Raised(error: ErrorShape)

  const Retries: nat := 3

  /** The delays (ms) waited after the failed attempts among 1..n: attempt
      `k` failing costs `k * 1000`. */
  function Backoffs(upload: nat -> UploadOutcome, n: nat): (r: seq<nat>)
    ensures |r| <= n
    ensures forall i :: 0 <= i < |r| ==> 1000 <= r[i] <= n * 1000 && r[i] % 1000 == 0
    ensures forall i :: 0 <= i < |r| ==> upload(r[i] / 1000).UploadFailed?
    ensures forall i, j :: 0 <= i < j < |r| ==> r[i] < r[j]
  {
    if n == 0 then []
    else Backoffs(upload, n - 1) + (if upload(n).UploadFailed? then [n * 1000] else [])
  }

  /** The other direction: every attempt among 1..n that raised an error is
      followed by its wait, so the list is exactly the failed attempts'
      delays. */
  lemma {:induction false} BackoffsListEveryFailure(upload: nat -> UploadOutcome, n: nat, k: nat)
    requires 1 <= k <= n && upload(k).UploadFailed?
    ensures k * 1000 in Backoffs(upload, n)
    decreases n
  {
    if k < n {
      BackoffsListEveryFailure(upload, n - 1, k);
    }
  }

  /** `attemptUpload(retries)`: upload attempts 1, 2, ... stop at the first
      result with a URL; an error on the last attempt propagates; an error on
      an earlier one waits `attempt * 1000` ms and retries; a result without
      a URL retries at once. `calls` is the number of attempts made. */
  method AttemptUpload(upload: nat -> UploadOutcome, retries: nat) returns (r: AttemptResult, calls: nat, waits: seq<nat>)
    ensures calls <= retries && (retries > 0 ==> calls >= 1)
    ensures r.Url? <==> exists k :: 1 <= k <= retries && Succeeds(upload(k))
    ensures r.Url? ==>
      && upload(calls) == Uploaded(r.url) && r.url != ""
      && forall k :: 1 <= k < calls ==> !Succeeds(upload(k))
    ensures r.Raised? ==> calls == retries && upload(retries) == UploadFailed(r.error)
    ensures r.NoUrl? ==> calls == retries && (retries > 0 ==> upload(retries).Uploaded?)
    ensures waits == Backoffs(upload, if calls == 0 then 0 else calls - 1)
  {
    var attempt: nat := 1;
    calls := 0;
    waits := [];
    while attempt <= retries
      invariant 1 <= attempt <= retries + 1 || (retries == 0 && attempt == 1)
      invariant calls == attempt - 1
      invariant forall k :: 1 <= k < attempt ==> !Succeeds(upload(k))
      invariant waits == Backoffs(upload, attempt - 1)
      invariant attempt > 1 ==> upload(attempt - 1).Uploaded? || attempt - 1 < retries
      decreases retries + 1 - attempt
    {
      calls := attempt;
      match upload(attempt) {
        case Uploaded(url) =>
          if url != "" {
            r := Url(url);
            return;
          }
        case UploadFailed(e) =>
          if attempt == retries {
            r := Raised(e);
            return;
          }
          waits := waits + [attempt * 1000];
      }
      attempt := attempt + 1;
    }
    r := NoUrl;
  }

  predicate IsTimeout(e: ErrorShape) {
    e.message == "Request Timeout" || e.name == "TimeoutError"
  }

  const TimeoutResponse: Response := Response(408, ErrorJson("Image upload timed out after multiple attempts. Please try a smaller image or try again later."))
  const TooLargeResponse: Response := Response(413, ErrorJson("Image file is too large. Please try a smaller image (under 1MB)."))
  const BadFormatResponse: Response := Response(400, ErrorJson("Invalid image format. Please try a different image (JPEG or PNG recommended)."))
  const UpdateFailedResponse: Response := Response(500, ErrorJson("Failed to update profile. Please try again later."))

  /** The catch block of `updateProfile`: timeouts first, then the image
      host's 413 and 400 codes, and 500 for everything else. */
  function MapUploadError(e: ErrorShape): (r: Response)
    ensures r.status == 408 <==> IsTimeout(e)
    ensures r.status == 413 <==> !IsTimeout(e) && e.httpCode == Some(413)
    ensures r.status == 400 <==> !IsTimeout(e) && e.httpCode == Some(400)
    ensures r.status == 500 <==> !IsTimeout(e) && e.httpCode != Some(413) && e.httpCode != Some(400)
    ensures r in {TimeoutResponse, TooLargeResponse, BadFormatResponse, UpdateFailedResponse}
  {
    if IsTimeout(e) then TimeoutResponse
    else if e.httpCode == Some(413) then TooLargeResponse
    else if e.httpCode == Some(400) then BadFormatResponse
    else UpdateFailedResponse
  }

  const PicRequired: Response := Response(400, ErrorJson("Profile pic is required"))
  const UploadFailedResponse: Response := Response(400, ErrorJson("Failed to upload image"))
  const UserNotFound: Response := Response(404, ErrorJson("User not found"))

  /** `updateProfile` for the authenticated `userId`. `storeFault` is the
      error `User.findByIdAndUpdate` rejects with, if it does; that error
      lands in the same catch as the upload's, and nothing is written. */
  method UpdateProfile(db: Db, userId: Id, profilePic: string, upload: nat -> UploadOutcome, storeFault: Option<ErrorShape>)
    returns (db': Db, response: Response, calls: nat, waits: seq<nat>)
    ensures profilePic == "" ==> response == PicRequired && calls == 0 && waits == []
    ensures profilePic != "" ==> 1 <= calls <= Retries && |waits| < Retries
    ensures response.status != 200 ==> db' == db
    ensures response.status == 200 <==>
      && profilePic != ""
      && (exists k :: 1 <= k <= Retries && Succeeds(upload(k)))
      && storeFault.None?
      && FindById(db.users, userId).Some?
    ensures response.status == 200 ==> 1 <= calls <= Retries && Succeeds(upload(calls))
    ensures response.status == 200 ==> forall k :: 1 <= k < calls ==> !Succeeds(upload(k))
    ensures response.status == 200 ==>
      var i := FindById(db.users, userId).value;
      var u := db.users[i].user.(profilePic := upload(calls).secureUrl);
      && db' == db.(users := db.users[i := db.users[i].(user := u)])
      && response.body == UserJson(u)
    ensures profilePic != "" && (exists k :: 1 <= k <= Retries && Succeeds(upload(k))) && storeFault.Some? ==>
      response == MapUploadError(storeFault.value)
    ensures profilePic != "" && (exists k :: 1 <= k <= Retries && Succeeds(upload(k))) && storeFault.None?
            && FindById(db.users, userId).None? ==>
      response == UserNotFound
    ensures profilePic != "" && (forall k :: 1 <= k <= Retries ==> !Succeeds(upload(k))) ==>
      response == (match upload(Retries)
                   case UploadFailed(e) => MapUploadError(e)
                   case Uploaded(_) => UploadFailedResponse)
  {
    db' := db;
    if profilePic == "" {
      response, calls, waits := PicRequired, 0, [];
      return;
    }
    var result;
    result, calls, waits := AttemptUpload(upload, Retries);
    match result
    case Raised(e) =>
      response := MapUploadError(e);
    case NoUrl =>
      response := UploadFailedResponse;
    case Url(url) =>
      if storeFault.Some? {
        response := MapUploadError(storeFault.value);
        return;
      }
      match FindById(db.users, userId)
      case None =>
        response := UserNotFound;
      case Some(i) =>
        var u := db.users[i].user.(profilePic := url);
        db' := db.(users := db.users[i := db.users[i].(user := u)]);
        response := Response(200, UserJson(u));
  }
}

=== FILE: auth_store.dfy ===
/**
  The client's authentication and presence store: who is logged in, the one
  live socket of the session and the online roster pushed by the server.
  Every action is a pure transition from the state before the call to the
  state after its last awaited step; HTTP results and socket-level events are
  inputs.
*/
module AuthStore {
  import opened Domain
  import opened Http

  /** A socket.io client socket. `serial` tells socket objects apart,
      `userId` is the handshake query, `connected` the transport state and
      `newMessageHandlers` the number of `newMessage` listeners on it. */
  datatype Socket = Socket(serial: nat, userId: Id, connected: bool, newMessageHandlers: nat)

  /** The store's fields. The flags are the keys the actions write
      (`isSigningUp`, `isLoggingIn`); the initial object spells them
      `isSigninUp` and `isLogginIng`, so they start out undefined, i.e. false. */
  datatype AuthState = AuthState(
    authUser: Option<User>,
    isSigningUp: bool,
    isLoggingIn: bool,
    isUpdatingProfile: bool,
    isCheckingAuth: bool,
    onlineUsers: seq<Id>,
    socket: Option<Socket>)

  /** The outcome of one action: the state afterwards, the socket the action
      disconnected (if any), the toast it showed (if any), and whether the
      promise it returned rejects. */
  datatype Step = Step(state: AuthState, closed: Option<Socket>, toast: Option<string>, threw: bool)

  /** The state the store is created with. */
  function Initial(): (r: AuthState)
    ensures r.authUser.None? && r.socket.None? && r.onlineUsers == []
    ensures r.isCheckingAuth && !r.isUpdatingProfile && !r.isSigningUp && !r.isLoggingIn
  {
    AuthState(None, false, false, false, true, [], None)
  }

  /** A freshly created socket for `user`: not yet connected, no listeners. */
  function NewSocket(serial: nat, user: User): Socket
  {
    Socket(serial, user.id, false, 0)
  }

  /** `checkAuth`: the session check decides `authUser`; errors are not
      reported, and the checking flag is cleared either way. */
  function CheckAuth(st: AuthState, reply: Reply<User>): (r: AuthState)
    ensures reply.Ok? ==> r.authUser == Some(reply.data)
    ensures reply.Err? ==> r.authUser.None?
    ensures !r.isCheckingAuth
    ensures r.socket == st.socket && r.onlineUsers == st.onlineUsers
    // nothing but the user and the checking flag changes
    ensures r == st.(authUser := r.authUser, isCheckingAuth := false)
  {
    match reply
    case Ok(u) => st.(authUser := Some(u), isCheckingAuth := false)
    case Err(_) => st.(authUser := None, isCheckingAuth := false)
  }

  /** `connectSocket`: without a logged-in user nothing happens. Otherwise a
      connected socket is disconnected first, and a new socket whose
      handshake carries the user's id replaces it. A socket that exists but
      is not connected is dropped from the store without being closed. */
  function ConnectSocket(st: AuthState, serial: nat): (r: Step)
    ensures st.authUser.None? ==> r.state == st && r.closed.None?
    ensures st.authUser.Some? ==>
      && r.state.socket == Some(Socket(serial, st.authUser.value.id, false, 0))
      && r.state.authUser == st.authUser
      && r.state.onlineUsers == st.onlineUsers
      && r.state == st.(socket := r.state.socket)
    ensures r.closed.Some? <==> st.authUser.Some? && st.socket.Some? && st.socket.value.connected
    ensures r.closed.Some? ==> r.closed.value == st.socket.value.(connected := false)
    ensures r.toast.None? && !r.threw
  {
    match st.authUser
    case None => Step(st, None, None, false)
    case Some(u) =>
      var closed := if st.socket.Some? && st.socket.value.connected
                    then Some(st.socket.value.(connected := false)) else None;
      Step(st.(socket := Some(NewSocket(serial, u))), closed, None, false)
  }

  /** The `getOnlineUsers` listener: the pushed roster replaces the whole
      list. */
  function ReceiveRoster(st: AuthState, userIds: seq<Id>): (r: AuthState)
    ensures r.onlineUsers == userIds
    ensures r == st.(onlineUsers := r.onlineUsers)
  {
    st.(onlineUsers := userIds)
  }

  /** `disconnectSocket`: acts only on a connected socket, clearing the
      socket and the roster; otherwise nothing changes. */
  function DisconnectSocket(st: AuthState): (r: Step)
    ensures st.socket.Some? && st.socket.value.connected ==>
      && r.state == st.(socket := None, onlineUsers := [])
      && r.closed == Some(st.socket.value.(connected := false))
    ensures !(st.socket.Some? && st.socket.value.connected) ==> r.state == st && r.closed.None?
    ensures r.toast.None? && !r.threw
  {
    if st.socket.Some? && st.socket.value.connected then
      Step(st.(socket := None, onlineUsers := []), Some(st.socket.value.(connected := false)), None, false)
    else
      Step(st, None, None, false)
  }

  /** Transport event: the socket's connection is established (or
      re-established by socket.io's own reconnection, which keeps the same
      socket object and its listeners). */
  function TransportUp(st: AuthState): AuthState
  {
    match st.socket
    case None => st
    case Some(s) => st.(socket := Some(s.(connected := true)))
  }

  /** Transport event: the connection drops without `disconnectSocket`
      being called. */
  function TransportDown(st: AuthState): AuthState
  {
    match st.socket
    case None => st
    case Some(s) => st.(socket := Some(s.(connected := false)))
  }

  /** `signup`: on success the returned user is stored and a socket is
      opened for it; on failure the server's message is shown. */
  function Signup(st: AuthState, reply: Reply<User>, serial: nat): (r: Step)
    ensures !r.state.isSigningUp
    ensures reply.Ok? ==>
      && r.state.authUser == Some(reply.data)
      && r.state.socket == Some(Socket(serial, reply.data.id, false, 0))
      && r.toast == Some("Account created successfully") && !r.threw
    // the rest of the store is kept, and a live socket of the previous session is closed
    ensures reply.Ok? ==>
      && r.state == st.(authUser := r.state.authUser, socket := r.state.socket, isSigningUp := false)
      && r.closed == (if st.socket.Some? && st.socket.value.connected
                      then Some(st.socket.value.(connected := false)) else None)
    ensures reply.Err? ==>
      && r.state == st.(isSigningUp := false) && r.closed.None?
      && (r.threw <==> reply.error.response.None?)
      && r.toast == ToastOf(ReportError(reply.error, ""))
  {
    match reply
    case Ok(u) =>
      var c := ConnectSocket(st.(authUser := Some(u)), serial);
      Step(c.state.(isSigningUp := false), c.closed, Some("Account created successfully"), false)
    case Err(e) =>
      var report := ReportError(e, "");
      Step(st.(isSigningUp := false), None, ToastOf(report), report.CatchThrew?)
  }

  /** `login`: the same shape as `signup`. */
  function Login(st: AuthState, reply: Reply<User>, serial: nat): (r: Step)
    ensures !r.state.isLoggingIn
    ensures reply.Ok? ==>
      && r.state.authUser == Some(reply.data)
      && r.state.socket == Some(Socket(serial, reply.data.id, false, 0))
      && r.toast == Some("Logged in successfully") && !r.threw
    // the rest of the store is kept, and a live socket of the previous session is closed
    ensures reply.Ok? ==>
      && r.state == st.(authUser := r.state.authUser, socket := r.state.socket, isLoggingIn := false)
      && r.closed == (if st.socket.Some? && st.socket.value.connected
                      then Some(st.socket.value.(connected := false)) else None)
    ensures reply.Err? ==>
      && r.state == st.(isLoggingIn := false) && r.closed.None?
      && (r.threw <==> reply.error.response.None?)
      && r.toast == ToastOf(ReportError(reply.error, ""))
  {
    match reply
    case Ok(u) =>
      var c := ConnectSocket(st.(authUser := Some(u)), serial);
      Step(c.state.(isLoggingIn := false), c.closed, Some("Logged in successfully"), false)
    case Err(e) =>
      var report := ReportError(e, "");
      Step(st.(isLoggingIn := false), None, ToastOf(report), report.CatchThrew?)
  }

  /** `logout`: on success the user is cleared and then the socket is
      disconnected (which only happens if it is connected); on failure the
      state is untouched. */
  function Logout(st: AuthState, reply: Reply<()>): (r: Step)
    ensures reply.Ok? ==> r.state.authUser.None?
    ensures reply.Ok? && st.socket.Some? && st.socket.value.connected ==>
      && r.state == st.(authUser := None, socket := None, onlineUsers := [])
      && r.closed == Some(st.socket.value.(connected := false))
    ensures reply.Ok? && !(st.socket.Some? && st.socket.value.connected) ==>
      r.state == st.(authUser := None) && r.closed.None?
    ensures reply.Ok? ==> r.toast == Some("Logged out successfully") && !r.threw
    ensures reply.Err? ==> r.state == st && r.closed.None? && (r.threw <==> reply.error.response.None?)
    ensures reply.Err? ==> r.toast == ToastOf(ReportError(reply.error, ""))
  {
    match reply
    case Ok(_) =>
      var d := DisconnectSocket(st.(authUser := None));
      Step(d.state, d.closed, Some("Logged out successfully"), false)
    case Err(e) =>
      var report := ReportError(e, "");
      Step(st, None, ToastOf(report), report.CatchThrew?)
  }

  /** `updateProfile`: the returned user replaces `authUser` only on
      success; the flag is cleared either way. The action resolves to
      undefined: a server rejection is reported by a toast here and never
      reaches the caller (only an error without a response makes the
      promise reject). */
  function UpdateProfile(st: AuthState, reply: Reply<User>): (r: Step)
    ensures !r.state.isUpdatingProfile
    ensures reply.Ok? ==> r.state.authUser == Some(reply.data) && !r.threw
    ensures reply.Err? ==> r.state.authUser == st.authUser
    ensures r.state.socket == st.socket && r.state.onlineUsers == st.onlineUsers
    ensures r.threw <==> reply.Err? && reply.error.response.None?
    // only the user and the flag change, no socket is closed, and only a failure shows a toast
    ensures r.state == st.(authUser := r.state.authUser, isUpdatingProfile := false) && r.closed.None?
    ensures reply.Ok? ==> r.toast.None?
    ensures reply.Err? ==> r.toast == ToastOf(ReportError(reply.error, ""))
  {
    match reply
    case Ok(u) => Step(st.(authUser := Some(u), isUpdatingProfile := false), None, None, false)
    case Err(e) =>
      var report := ReportError(e, "");
      Step(st.(isUpdatingProfile := false), None, ToastOf(report), report.CatchThrew?)
  }

  /** A series of roster pushes applied in order. */
  function ApplyRosters(st: AuthState, pushes: seq<seq<Id>>): AuthState
    decreases |pushes|
  {
    if pushes == [] then st else ApplyRosters(ReceiveRoster(st, pushes[0]), pushes[1..])
  }

  /** Rosters are full snapshots, not deltas: after any series of pushes the
      list is exactly the last one received, and nothing else in the store
      changed. */
  lemma {:induction false} LastRosterWins(st: AuthState, pushes: seq<seq<Id>>)
    ensures pushes == [] ==> ApplyRosters(st, pushes) == st
    ensures pushes != [] ==> ApplyRosters(st, pushes) == st.(onlineUsers := pushes[|pushes| - 1])
    decreases |pushes|
  {
    if pushes != [] {
      LastRosterWins(ReceiveRoster(st, pushes[0]), pushes[1..]);
    }
  }

  /** Re-connecting with a live socket closes the previous socket and keeps
      exactly the new one: there is never more than one socket held. */
  lemma ReconnectClosesPrevious(st: AuthState, first: nat, second: nat)
    requires st.authUser.Some?
    ensures var s1 := TransportUp(ConnectSocket(st, first).state);
            var c := ConnectSocket(s1, second);
            && c.closed == Some(Socket(first, st.authUser.value.id, false, 0))
            && c.state.socket == Some(Socket(second, st.authUser.value.id, false, 0))
  {
  }

  /** Logging out while the new socket is still connecting leaves that
      socket in the store (with no user), since `disconnectSocket` ignores
      sockets that are not connected. */
  lemma LogoutWhileConnectingKeepsSocket(st: AuthState, user: User, serial: nat)
    ensures var s1 := Login(st, Ok(user), serial).state;
            var s2 := Logout(s1, Ok(())).state;
            && s2.authUser.None?
            && s2.socket == Some(Socket(serial, user.id, false, 0))
  {
  }

  /** The session check decides whether a socket can be opened: after a
      failed check `connectSocket` does nothing, after a successful one it
      opens a socket for the checked user. */
  lemma CheckAuthGatesConnect(st: AuthState, reply: Reply<User>, serial: nat)
    ensures var checked := CheckAuth(st, reply);
            var c := ConnectSocket(checked, serial);
            && (reply.Err? ==> c.state == checked && c.closed.None?)
            && (reply.Ok? ==> c.state.socket == Some(Socket(serial, reply.data.id, false, 0)))
  {
  }

  /** Signing up and logging out again, once the socket has connected,
      returns the session to no user, no socket and no roster, and closes
      exactly the socket the signup opened. */
  lemma SignupThenLogout(st: AuthState, user: User, serial: nat, roster: seq<Id>)
    ensures var s1 := ReceiveRoster(TransportUp(Signup(st, Ok(user), serial).state), roster);
            var out := Logout(s1, Ok(()));
            && s1.authUser == Some(user) && s1.onlineUsers == roster
            && out.state.authUser.None? && out.state.socket.None? && out.state.onlineUsers == []
            && out.closed == Some(Socket(serial, user.id, false, 0))
  {
  }

  /** After the transport drops, the last roster stays in the store and a
      `disconnectSocket` call does not clear it. */
  lemma DroppedTransportKeepsRoster(st: AuthState)
    requires st.socket.Some?
    ensures var s1 := TransportDown(st);
            && s1.onlineUsers == st.onlineUsers
            && DisconnectSocket(s1).state == s1
  {
  }
}

=== FILE: chat_container.dfy ===
/**
  The conversation view: the effect that fetches the selected conversation
  and manages the `newMessage` subscription, and the per-message bubble side
  and avatar.
*/
module ChatContainer {
  import opened Domain
  import opened Http
  import opened AuthStore
  import opened ChatStore

  /** What one run of the subscription effect did: the conversation it
      fetched, whether it subscribed, and the socket its cleanup captured
      (None when no cleanup was installed or no socket existed). */
  datatype Mounted = Mounted(fetched: Option<Id>, subscribed: bool, cleanup: bool, captured: Option<Socket>)

  const Idle: Mounted := Mounted(None, false, false, None)

  /** The effect body for the selection at mount time and the auth store's
      socket: nothing at all without a selected user id; otherwise fetch that
      user's history and subscribe only if the socket is connected. */
  function RunEffect(selected: Option<User>, socket: Option<Socket>): (r: Mounted)
    ensures selected.None? || selected.value.id == "" ==> r == Idle
    ensures selected.Some? && selected.value.id != "" ==>
      && r.fetched == Some(selected.value.id)
      && r.cleanup
      && (r.subscribed <==> socket.Some? && socket.value.connected)
      && r.captured == socket
  {
    if selected.None? || selected.value.id == "" then Idle
    else Mounted(Some(selected.value.id), socket.Some? && socket.value.connected, true, socket)
  }

  /** Whether the cleanup unsubscribes: only when a cleanup was installed and
      the socket it captured is connected at cleanup time. */
  predicate CleanupUnsubscribes(m: Mounted, capturedConnectedNow: bool) {
    m.cleanup && m.captured.Some? && capturedConnectedNow
  }

  /** Listening and unlistening never replace the socket: the same socket
      object (serial, handshake id, connection) is held, only its
      `newMessage` listener count may differ. */
  predicate SameSocket(a: Option<Socket>, b: Option<Socket>)
  {
    a.Some? == b.Some? && (a.Some? ==> a.value.(newMessageHandlers := 0) == b.value.(newMessageHandlers := 0))
  }

  /** Mounting the effect against the stores: the chat store after the fetch
      settles and the socket after the optional subscription. */
  function Mount(chat: ChatState, socket: Option<Socket>, history: Reply<seq<Message>>): (r: (ChatState, Option<Socket>, Mounted))
    ensures r.2 == RunEffect(chat.selectedUser, socket)
    ensures r.2.fetched.None? ==> r.0 == chat && r.1 == socket
    ensures r.2.fetched.Some? ==> r.0 == GetMessages(chat, history).after
    ensures Listeners(r.1) == Listeners(socket) + (if r.2.subscribed then 1 else 0)
    ensures SameSocket(r.1, socket)
  {
    var m := RunEffect(chat.selectedUser, socket);
    if m.fetched.None? then (chat, socket, m)
    else (GetMessages(chat, history).after, if m.subscribed then Subscribe(socket) else socket, m)
  }

  /** Running the cleanup of `m`: `unsubscribeFromMessages` acts on the auth
      store's CURRENT socket and removes all its `newMessage` listeners. */
  function Unmount(socket: Option<Socket>, m: Mounted, capturedConnectedNow: bool): (r: Option<Socket>)
    ensures CleanupUnsubscribes(m, capturedConnectedNow) ==> Listeners(r) == 0
    ensures !CleanupUnsubscribes(m, capturedConnectedNow) ==> r == socket
    ensures SameSocket(r, socket)
  {
    if CleanupUnsubscribes(m, capturedConnectedNow) then Unsubscribe(socket) else socket
  }

  /** The effect's dependency: the selected user's `_id`, or undefined. */
  function EffectKey(selected: Option<User>): Option<Id>
  {
    if selected.None? then None else Some(selected.value.id)
  }

  /** Switching the selection. When the new selection has the same `_id` as
      the current one, the effect's dependency is unchanged and React runs
      neither the cleanup nor the effect: only the selection is replaced.
      Otherwise the previous effect's cleanup runs, then the effect for the
      new selection. */
  function Switch(chat: ChatState, socket: Option<Socket>, prev: Mounted, capturedConnectedNow: bool,
                  next: Option<User>, history: Reply<seq<Message>>): (r: (ChatState, Option<Socket>, Mounted))
    ensures r.0.selectedUser == next
    ensures SameSocket(r.1, socket)
    ensures EffectKey(next) == EffectKey(chat.selectedUser) ==>
      r == (chat.(selectedUser := next), socket, prev)
    ensures EffectKey(next) != EffectKey(chat.selectedUser) ==>
      && r.2 == RunEffect(next, Unmount(socket, prev, capturedConnectedNow))
      && r.0 == (if r.2.fetched.Some? then GetMessages(chat.(selectedUser := next), history).after
                 else chat.(selectedUser := next))
      // the old listeners go exactly when the cleanup unsubscribes; the new effect adds at most one
      && Listeners(r.1) ==
           (if CleanupUnsubscribes(prev, capturedConnectedNow) then 0 else Listeners(socket)) + (if r.2.subscribed then 1 else 0)
  {
    if EffectKey(next) == EffectKey(chat.selectedUser) then (SetSelectedUser(chat, next), socket, prev)
    else Mount(SetSelectedUser(chat, next), Unmount(socket, prev, capturedConnectedNow), history)
  }

  /** Picking the contact whose conversation is already open keeps the list
      as it is, pushed messages included, and keeps the subscription; picking
      another contact refetches. */
  lemma ReselectKeepsConversation(chat: ChatState, socket: Option<Socket>, prev: Mounted, connectedNow: bool,
                                  again: User, other: User, history: Reply<seq<Message>>)
    requires chat.selectedUser.Some? && again.id == chat.selectedUser.value.id
    requires other.id != chat.selectedUser.value.id && other.id != ""
    ensures var (c, s, m) := Switch(chat, socket, prev, connectedNow, Some(again), history);
            c.messages == chat.messages && s == socket && m == prev
    ensures var (c, s, m) := Switch(chat, socket, prev, connectedNow, Some(other), history);
            c == GetMessages(chat.(selectedUser := Some(other)), history).after && m.fetched == Some(other.id)
  {
  }

  /** A series of selection changes over a socket that stays connected (and
      is the one every cleanup captured). */
  function Browse(chat: ChatState, socket: Option<Socket>, prev: Mounted,
                  picks: seq<Option<User>>, history: Reply<seq<Message>>): (ChatState, Option<Socket>, Mounted)
    decreases |picks|
  {
    if picks == [] then (chat, socket, prev)
    else
      var (c1, s1, m1) := Switch(chat, socket, prev, true, picks[0], history);
      Browse(c1, s1, m1, picks[1..], history)
  }

  /** With the connection stable, the subscription lifecycle is balanced:
      however the user switches conversations, the socket carries exactly one
      `newMessage` listener while a conversation is open and none otherwise,
      so each push is appended once. */
  lemma {:induction false} StableConnectionKeepsOneListener(
    chat: ChatState, socket: Socket, prev: Mounted, picks: seq<Option<User>>, history: Reply<seq<Message>>)
    requires socket.connected
    requires prev.captured.Some? <==> prev.cleanup
    requires socket.newMessageHandlers == (if prev.subscribed then 1 else 0)
    requires prev.subscribed ==> prev.cleanup
    ensures var (c, s, m) := Browse(chat, Some(socket), prev, picks, history);
            && s.Some? && s.value.connected
            && Listeners(s) == (if m.subscribed then 1 else 0)
            && (m.captured.Some? <==> m.cleanup)
            && (m.subscribed ==> m.cleanup)
    decreases |picks|
  {
    if picks != [] {
      var (c1, s1, m1) := Switch(chat, Some(socket), prev, true, picks[0], history);
      var u := Unmount(Some(socket), prev, true);
      assert Listeners(u) == 0;
      assert s1.Some? && s1.value.connected;
      StableConnectionKeepsOneListener(c1, s1.value, m1, picks[1..], history);
    }
  }

  /** The leak needs every cleanup between the drop and the next
      subscription to run while the transport is down. For example: the
      user switches conversation during the drop, then leaves the view, and
      re-enters it after the reconnect. Each cleanup then sees a
      disconnected socket and does nothing, so the listener of the first
      conversation survives, and the fresh mount adds a second one. Every
      push is then appended twice. */
  lemma MissedCleanupDuplicatesPushes(
    chat: ChatState, socket: Socket, peer: User, next: User, h1: Reply<seq<Message>>, h2: Reply<seq<Message>>, m: Message)
    requires socket.connected && socket.newMessageHandlers == 0
    requires peer.id != "" && next.id != ""
    ensures var (c1, s1, m1) := Mount(SetSelectedUser(chat, Some(peer)), Some(socket), h1);
            // the transport drops; picking `next` (m1's cleanup, if it runs, runs while it is down)
            var down := Some(s1.value.(connected := false));
            var (c2, s2, m2) := Switch(c1, down, m1, false, Some(next), h2);
            // the view is left while still down: m2's cleanup does nothing either
            var left := Unmount(s2, m2, false);
            // the transport comes back and the view is entered again with `next` selected
            var up := Some(left.value.(connected := true));
            var (c3, s3, m3) := Mount(c2, up, h2);
            && Listeners(s1) == 1 && (next.id != peer.id ==> !m2.subscribed) && left == s2
            && Listeners(s3) == 2
            && Deliver(c3, s3, m).messages == c3.messages + [m, m]
  {
  }

  datatype Side = ChatStart | ChatEnd

  /** The bubble class: own messages on the end side. */
  function BubbleSide(m: Message, me: User): (r: Side)
    ensures r == ChatEnd <==> m.senderId == me.id
  {
    if m.senderId == me.id then ChatEnd else ChatStart
  }

  /** The bubble avatar: the viewer's picture on own messages, the selected
      user's otherwise, each falling back to the placeholder. */
  function Avatar(m: Message, me: User, peer: User): (r: string)
    ensures r != ""
    ensures BubbleSide(m, me) == ChatEnd ==> r == PicOrDefault(me.profilePic)
    ensures BubbleSide(m, me) == ChatStart ==> r == PicOrDefault(peer.profilePic)
  {
    if m.senderId == me.id then PicOrDefault(me.profilePic) else PicOrDefault(peer.profilePic)
  }
}

=== FILE: chat_store.dfy ===
/**
  The client's chat store: the conversation with the selected participant as
  an ordered message list, plus loading flags. The socket it subscribes on
  belongs to the authentication store and is passed in and out explicitly.
*/
module ChatStore {
  import opened Domain
  import opened Http
  import opened AuthStore

  datatype ChatState = ChatState(
    messages: seq<Message>,
    users: seq<User>,
    selectedUser: Option<User>,
    isUsersLoading: bool,
    isMessagesLoading: bool,
    isAILoading: bool)

  /** A fetch action seen at its two observable points: `during` is the
      state while the request is in flight, `after` the state once it has
      settled. */
  datatype Fetch = Fetch(during: ChatState, after: ChatState, toast: Option<string>, threw: bool)

  /** The request `sendMessage` issues: the AI endpoint takes only the text,
      the peer endpoint the text and the image. */
  datatype Request = AiChat(text: string) | SendTo(peer: Id, text: string, image: Option<string>)

  /** `sendMessage` seen at its two observable points, with the request it
      issued, the `sendMessage` event it emitted on the socket, its toast and
      whether the promise it returned rejects. */
  datatype Send = Send(
    during: ChatState,
    after: ChatState,
    request: Option<Request>,
    emitted: Option<Message>,
    toast: Option<string>,
    threw: bool)

  function Initial(): (r: ChatState)
    ensures r.messages == [] && r.users == [] && r.selectedUser.None?
    ensures !r.isUsersLoading && !r.isMessagesLoading && !r.isAILoading
  {
    ChatState([], [], None, false, false, false)
  }

  /** `getUsers`: the fetched list replaces the contact list. */
  function GetUsers(s: ChatState, reply: Reply<seq<User>>): (r: Fetch)
    ensures r.during == s.(isUsersLoading := true)
    ensures !r.after.isUsersLoading && r.after.messages == s.messages
    ensures reply.Ok? ==> r.after.users == reply.data && r.toast.None? && !r.threw
    ensures reply.Err? ==> r.after.users == s.users && (r.threw <==> reply.error.response.None?)
    ensures reply.Err? ==> r.toast == ToastOf(ReportError(reply.error, ""))
    // only the contact list and its flag change
    ensures r.after == s.(users := r.after.users, isUsersLoading := false)
  {
    match reply
    case Ok(users) => Fetch(s.(isUsersLoading := true), s.(users := users, isUsersLoading := false), None, false)
    case Err(e) =>
      var report := ReportError(e, "");
      Fetch(s.(isUsersLoading := true), s.(isUsersLoading := false), ToastOf(report), report.CatchThrew?)
  }

  /** Two contact fetches in a row: the list shown is the latest one that
      arrived, a failed fetch keeps whatever was there, and the open
      conversation is untouched. */
  lemma LatestUsersFetchWins(s: ChatState, first: Reply<seq<User>>, second: Reply<seq<User>>)
    ensures var r := GetUsers(GetUsers(s, first).after, second).after;
            && r.users == (if second.Ok? then second.data else if first.Ok? then first.data else s.users)
            && r.messages == s.messages && r.selectedUser == s.selectedUser
            && !r.isUsersLoading
  {
  }

  /** `getMessages`: the fetched history replaces the message list; the
      loading flag is raised while the request is in flight and is false
      afterwards whether it succeeded or failed. */
  function GetMessages(s: ChatState, reply: Reply<seq<Message>>): (r: Fetch)
    ensures r.during.isMessagesLoading && r.during.messages == s.messages
    ensures !r.after.isMessagesLoading
    ensures reply.Ok? ==> r.after.messages == reply.data && r.toast.None? && !r.threw
    ensures reply.Err? ==> r.after.messages == s.messages && (r.threw <==> reply.error.response.None?)
    ensures r.after.selectedUser == s.selectedUser && r.after.users == s.users
    ensures reply.Err? ==> r.toast == ToastOf(ReportError(reply.error, ""))
    // only the message list and its flag change
    ensures r.during == s.(isMessagesLoading := true)
    ensures r.after == s.(messages := r.after.messages, isMessagesLoading := false)
  {
    var during := s.(isMessagesLoading := true);
    match reply
    case Ok(history) => Fetch(during, s.(messages := history, isMessagesLoading := false), None, false)
    case Err(e) =>
      var report := ReportError(e, "");
      Fetch(during, s.(isMessagesLoading := false), ToastOf(report), report.CatchThrew?)
  }

  /** The entry shown immediately when writing to the AI participant. */
  function Optimistic(me: User, peer: User, text: string, image: Option<string>, now: int): Message
  {
    Message(Temp(now), me.id, peer.id, text, image, now)
  }

  /** `sendMessage({text, image})` with the current `authUser` and socket of
      the authentication store, the clock reading `now` and the server's
      reply to the request. Reading a field of a missing selected user (or,
      on the AI path, of a missing `authUser`) throws before any request;
      the catch block then fails as well since that error has no response. */
  function SendMessage(
    s: ChatState, authUser: Option<User>, socket: Option<Socket>,
    text: string, image: Option<string>, now: int, reply: Reply<Message>): (r: Send)
    // every path clears the AI flag and leaves the contacts and selection alone
    ensures !r.after.isAILoading
    ensures r.after.selectedUser == s.selectedUser && r.after.users == s.users
    // only the message list and the AI flag ever change
    ensures r.during == s.(messages := r.during.messages, isAILoading := r.during.isAILoading)
    ensures r.after == s.(messages := r.after.messages, isAILoading := false)
    // a missing selected user: nothing is sent or shown, the call rejects
    ensures s.selectedUser.None? ==>
      r.request.None? && r.after.messages == s.messages && r.threw && r.toast.None?
    // AI path: optimistic entry first, then the reply; never emits
    ensures s.selectedUser.Some? && s.selectedUser.value.isAI ==> r.emitted.None?
    ensures s.selectedUser.Some? && s.selectedUser.value.isAI && authUser.None? ==>
      r.request.None? && r.after.messages == s.messages && r.threw
    ensures s.selectedUser.Some? && s.selectedUser.value.isAI && authUser.Some? ==>
      && r.request == Some(AiChat(text))
      && r.during.isAILoading
      && |r.during.messages| == |s.messages| + 1
      && r.during.messages[..|s.messages|] == s.messages
      && r.during.messages[|s.messages|].senderId == authUser.value.id
      && r.during.messages[|s.messages|].receiverId == s.selectedUser.value.id
      && r.during.messages[|s.messages|].text == text
      && r.during.messages[|s.messages|].key == Temp(now)
      && (reply.Ok? ==> r.after.messages == r.during.messages + [reply.data] && !r.threw)
      && (reply.Err? ==> r.after.messages == r.during.messages && r.threw)
    // peer path: exactly the server's message is appended; emitted iff a socket exists
    ensures s.selectedUser.Some? && !s.selectedUser.value.isAI ==>
      && r.request == Some(SendTo(s.selectedUser.value.id, text, image))
      && r.during.messages == s.messages
      && (reply.Ok? ==> r.after.messages == s.messages + [reply.data] && !r.threw)
      && (reply.Ok? ==> (r.emitted.Some? <==> socket.Some?))
      && (reply.Ok? && r.emitted.Some? ==> r.emitted == Some(reply.data))
      && (reply.Err? ==> r.after.messages == s.messages && r.emitted.None? && r.threw)
    // a failed request is reported with the server's message or the fallback
    ensures r.request.Some? && reply.Err? ==> r.toast == ToastOf(ReportError(reply.error, "Failed to send message"))
    // nothing is shown unless a request failed
    ensures r.toast.Some? ==> r.request.Some? && reply.Err?
  {
    match s.selectedUser
    case None => Send(s, s.(isAILoading := false), None, None, None, true)
    case Some(peer) =>
      if peer.isAI then
        match authUser
        case None => Send(s, s.(isAILoading := false), None, None, None, true)
        case Some(me) =>
          var during := s.(messages := s.messages + [Optimistic(me, peer, text, image, now)], isAILoading := true);
          match reply
          case Ok(data) =>
            Send(during, during.(messages := during.messages + [data], isAILoading := false), Some(AiChat(text)), None, None, false)
          case Err(e) =>
            Send(during, during.(isAILoading := false), Some(AiChat(text)), None,
                 ToastOf(ReportError(e, "Failed to send message")), true)
      else
        var request := Some(SendTo(peer.id, text, image));
        match reply
        case Ok(data) =>
          Send(s, s.(messages := s.messages + [data], isAILoading := false), request,
               if socket.Some? then Some(data) else None, None, false)
        case Err(e) =>
          Send(s, s.(isAILoading := false), request, None, ToastOf(ReportError(e, "Failed to send message")), true)
  }

  /** `subscribeToMessages`: registers one more `newMessage` listener on the
      socket; without a socket it does nothing. */
  function Subscribe(socket: Option<Socket>): (r: Option<Socket>)
    ensures socket.None? ==> r.None?
    ensures socket.Some? ==> r.Some? && r.value.newMessageHandlers == socket.value.newMessageHandlers + 1
    ensures socket.Some? ==> r.value.(newMessageHandlers := 0) == socket.value.(newMessageHandlers := 0)
  {
    match socket
    case None => None
    case Some(sk) => Some(sk.(newMessageHandlers := sk.newMessageHandlers + 1))
  }

  /** `unsubscribeFromMessages`: `socket.off("newMessage")` removes every
      `newMessage` listener; without a socket it does nothing. */
  function Unsubscribe(socket: Option<Socket>): (r: Option<Socket>)
    ensures socket.None? ==> r.None?
    ensures socket.Some? ==> r.Some? && r.value.newMessageHandlers == 0
    ensures socket.Some? ==> r.value.(newMessageHandlers := 0) == socket.value.(newMessageHandlers := 0)
  {
    match socket
    case None => None
    case Some(sk) => Some(sk.(newMessageHandlers := 0))
  }

  function Listeners(socket: Option<Socket>): nat
  {
    if socket.None? then 0 else socket.value.newMessageHandlers
  }

  /** `k` copies of `m`. */
  function Copies(m: Message, k: nat): (r: seq<Message>)
    ensures |r| == k
    ensures forall i :: 0 <= i < |r| ==> r[i] == m
  {
    if k == 0 then [] else Copies(m, k - 1) + [m]
  }

  /** A pushed `newMessage` event: every registered listener appends the
      message, with no de-duplication and no reordering. */
  function Deliver(s: ChatState, socket: Option<Socket>, m: Message): (r: ChatState)
    ensures r == s.(messages := r.messages)
    ensures |r.messages| == |s.messages| + Listeners(socket)
    ensures r.messages[..|s.messages|] == s.messages
    ensures forall i :: |s.messages| <= i < |r.messages| ==> r.messages[i] == m
  {
    var r := s.(messages := s.messages + Copies(m, Listeners(socket)));
    assert r.messages[..|s.messages|] == s.messages;
    r
  }

  /** Pushed events delivered one after another. */
  function DeliverAll(s: ChatState, socket: Option<Socket>, pushed: seq<Message>): ChatState
    decreases |pushed|
  {
    if pushed == [] then s else DeliverAll(Deliver(s, socket, pushed[0]), socket, pushed[1..])
  }

  /** `setSelectedUser`: only the selection changes; the list still holds
      the previous conversation until a fetch replaces it. */
  function SetSelectedUser(s: ChatState, user: Option<User>): (r: ChatState)
    ensures r.selectedUser == user
    ensures r == s.(selectedUser := user)
  {
    s.(selectedUser := user)
  }

  /** With one listener, a series of pushes is appended exactly, in arrival
      order: the earlier list is untouched and nothing is dropped or merged. */
  lemma {:induction false} PushesAppendInOrder(s: ChatState, socket: Option<Socket>, pushed: seq<Message>)
    requires Listeners(socket) == 1
    ensures DeliverAll(s, socket, pushed) == s.(messages := s.messages + pushed)
    decreases |pushed|
  {
    if pushed != [] {
      var s1 := Deliver(s, socket, pushed[0]);
      assert s1.messages == s.messages + [pushed[0]];
      PushesAppendInOrder(s1, socket, pushed[1..]);
      assert s.messages + [pushed[0]] + pushed[1..] == s.messages + pushed;
    }
  }

  /** With `k` listeners every push lands `k` times: the list grows by
      `k * |pushed|` and its earlier part is kept. */
  lemma {:induction false} PushesMultiplyByListeners(s: ChatState, socket: Option<Socket>, pushed: seq<Message>)
    ensures |DeliverAll(s, socket, pushed).messages| == |s.messages| + Listeners(socket) * |pushed|
    ensures DeliverAll(s, socket, pushed).messages[..|s.messages|] == s.messages
    ensures DeliverAll(s, socket, pushed) == s.(messages := DeliverAll(s, socket, pushed).messages)
    decreases |pushed|
  {
    if pushed != [] {
      var s1 := Deliver(s, socket, pushed[0]);
      PushesMultiplyByListeners(s1, socket, pushed[1..]);
      var r := DeliverAll(s1, socket, pushed[1..]);
      assert r.messages[..|s.messages|] == r.messages[..|s1.messages|][..|s.messages|];
      assert Listeners(socket) * |pushed| == Listeners(socket) + Listeners(socket) * |pushed[1..]|;
    }
  }

  /** Opening a conversation: the fetched history replaces whatever the
      list held before (two stores that differ only in their list end up
      identical), and with one listener the pushes that follow are appended
      after the history, in order. */
  lemma {:induction false} FetchThenPushes(s: ChatState, t: ChatState, socket: Option<Socket>, history: seq<Message>, pushed: seq<Message>)
    requires Listeners(socket) == 1
    requires t == s.(messages := t.messages)
    ensures GetMessages(s, Ok(history)).after == GetMessages(t, Ok(history)).after
    ensures DeliverAll(GetMessages(s, Ok(history)).after, socket, pushed).messages == history + pushed
  {
    PushesAppendInOrder(GetMessages(s, Ok(history)).after, socket, pushed);
  }

  /** Two subscriptions on one socket make every push appear twice. */
  lemma DoubleSubscribeDuplicates(s: ChatState, socket: Socket, m: Message)
    requires socket.newMessageHandlers == 0
    ensures Deliver(s, Subscribe(Subscribe(Some(socket))), m).messages == s.messages + [m, m]
  {
  }

  /** After `unsubscribeFromMessages` a push changes nothing, however many
      subscriptions there were. */
  lemma UnsubscribeSilences(s: ChatState, socket: Option<Socket>, m: Message)
    ensures Deliver(s, Unsubscribe(socket), m) == s
  {
  }
}

=== FILE: domain.dfy ===
/**
  Entities shared by the client stores, the components and the server
  controllers: participants, messages and the optional-value wrapper.
*/
module Domain {

  datatype Option<+T> = None | Some(value: T)

  /** Opaque participant identity (a database object id). The empty string
      stands for a missing or falsy `_id`. */
  type Id = string

  /** A participant as the client sees it (the stored record minus its
      password hash). `profilePic` is "" when none is set. */
  datatype User = User(id: Id, fullName: string, email: string, profilePic: string, isAI: bool)

  /** Message identity: a client-side temporary key (`Date.now()`) for an
      optimistic entry, or the position of the message in the server's
      append-only message log. */
  datatype MsgKey = Temp(millis: int) | Stored(index: nat)

  /** A message: exactly one sender and one recipient. `text` is "" when the
      message has no text; `image` is an opaque asset reference. */
  datatype Message = Message(key: MsgKey, senderId: Id, receiverId: Id, text: string, image: Option<string>, createdAt: int)

  /** The placeholder picture used wherever a profile picture is missing. */
  const DefaultAvatar: string := "/avatar.png"

  /** `pic || "/avatar.png"`: never yields an empty picture. */
  function PicOrDefault(pic: string): (r: string)
    ensures r != ""
    ensures pic != "" ==> r == pic
    ensures pic == "" ==> r == DefaultAvatar
  {
    if pic == "" then DefaultAvatar else pic
  }
}

=== FILE: end_to_end.dfy ===
/**
  Whole-system compositions: the composer driving the chat store, the
  server's AI handler answering the chat store while its push reaches the
  same client, and the server's upload errors as the profile page reports
  them.
*/
module EndToEnd {
  import opened Domain
  import opened Http
  import opened Server
  import AuthStore
  import opened ChatStore
  import AiController
  import AuthController
  import MessageInput
  import ChatContainer
  import ProfilePage

  /** One press of the send button: the composer's submit and, when it
      submits, the chat store's `sendMessage` it awaits. */
  datatype Exchange = Exchange(submit: MessageInput.Submit, send: Option<Send>)

  /** The composer hands the trimmed text and its preview to `sendMessage`;
      it clears itself exactly when that call resolves. */
  function ComposeAndSend(
    input: MessageInput.InputState, chat: ChatState, authUser: Option<User>,
    socket: Option<AuthStore.Socket>, now: int, reply: Reply<Message>): (r: Exchange)
    ensures r.send.Some? <==> !MessageInput.SubmitDisabled(input)
    ensures r.submit.sent.Some? <==> r.send.Some?
    ensures r.send.Some? ==>
      && r.send.value == SendMessage(chat, authUser, socket, r.submit.sent.value.text, input.imagePreview, now, reply)
      && (r.submit.after == MessageInput.Empty() <==> !r.send.value.threw)
      && (r.submit.errorShown <==> r.send.value.threw)
  {
    var press := MessageInput.HandleSendMessage(input, true);
    if press.sent.None? then Exchange(press, None)
    else
      var send := SendMessage(chat, authUser, socket, press.sent.value.text, input.imagePreview, now, reply);
      var submit := MessageInput.HandleSendMessage(input, !send.threw);
      Exchange(submit, Some(send))
  }

  /** The toasts one press shows, in order: the store's, then the
      composer's. */
  function Toasts(x: Exchange): seq<string>
  {
    (if x.send.Some? && x.send.value.toast.Some? then [x.send.value.toast.value] else [])
    + (if x.submit.errorShown then ["Failed to send message"] else [])
  }

  /** A message to a person that the server rejects with a message is
      reported twice, first with the server's text and then with the
      composer's own, and the typed text stays in the composer. */
  lemma RejectedSendShowsTwoToasts(
    input: MessageInput.InputState, chat: ChatState, me: User, socket: Option<AuthStore.Socket>,
    now: int, status: int, message: string)
    requires !MessageInput.SubmitDisabled(input)
    requires chat.selectedUser.Some? && !chat.selectedUser.value.isAI
    requires message != ""
    ensures var x := ComposeAndSend(input, chat, Some(me), socket, now, Err(HttpError(Some(ErrorBody(status, message)))));
            && Toasts(x) == [message, "Failed to send message"]
            && x.submit.after.text == input.text
            && x.send.value.after.messages == chat.messages
  {
    var reply: Reply<Message> := Err(HttpError(Some(ErrorBody(status, message))));
    var x := ComposeAndSend(input, chat, Some(me), socket, now, reply);
    var send := x.send.value;
    assert send.toast == Some(message) && send.threw;
    assert x.submit == MessageInput.HandleSendMessage(input, false);
  }

  /** A message to a person that the server stores lands once in the list,
      goes out on the socket when there is one, and the composer is
      cleared. */
  lemma AcceptedSendLandsOnce(
    input: MessageInput.InputState, chat: ChatState, me: User, socket: Option<AuthStore.Socket>,
    now: int, stored: Message)
    requires !MessageInput.SubmitDisabled(input)
    requires chat.selectedUser.Some? && !chat.selectedUser.value.isAI
    ensures var x := ComposeAndSend(input, chat, Some(me), socket, now, Ok(stored));
            && x.send.value.after.messages == chat.messages + [stored]
            && (x.send.value.emitted.Some? <==> socket.Some?)
            && x.submit.after == MessageInput.Empty()
            && Toasts(x) == []
  {
  }

  /** The AI conversation end to end: the server stores the question and the
      answer, answers the request with the answer AND pushes it to the
      asker's channel. A client whose conversation view holds one listener
      therefore shows the answer twice, after its own optimistic entry. */
  lemma AiReplyAppearsTwice(
    chat: ChatState, me: User, socket: AuthStore.Socket, text: string, now: int,
    db: Db, sentAt: int, repliedAt: int, freshAiId: Id, contents: seq<string>,
    registry: map<Id, AiController.Channel>)
    requires chat.selectedUser.Some? && chat.selectedUser.value.isAI
    requires |contents| > 0 && me.id in registry
    requires socket.newMessageHandlers == 1
    ensures var server := AiController.HandleAiMessage(db, me.id, text, sentAt, repliedAt, freshAiId,
                                                       AiController.Choices(contents), registry);
            var answer := server.db.messages[|db.messages| + 1];
            var client := SendMessage(chat, Some(me), Some(socket), text, None, now, Ok(server.response.body.msg));
            var shown := Deliver(client.after, Some(socket), answer);
            && server.response == Response(201, MessageJson(answer))
            && server.effects[|server.effects| - 1] == AiController.Pushed(registry[me.id], answer)
            && |shown.messages| == |chat.messages| + 3
            && shown.messages[..|chat.messages|] == chat.messages
            && shown.messages[|chat.messages|] == Optimistic(me, chat.selectedUser.value, text, None, now)
            && shown.messages[|chat.messages| + 1] == answer
            && shown.messages[|chat.messages| + 2] == answer
  {
  }

  /** In the AI conversation the asker's entry sits on the end side and the
      stored answer, sent by the AI user, on the start side, as long as the
      asker is not the AI user itself. */
  lemma AiExchangeSides(
    me: User, peer: User, text: string, now: int,
    db: Db, sentAt: int, repliedAt: int, freshAiId: Id, contents: seq<string>,
    registry: map<Id, AiController.Channel>)
    requires |contents| > 0
    requires me.id != AiController.GetOrCreateAiUser(db, freshAiId).user.id
    ensures var server := AiController.HandleAiMessage(db, me.id, text, sentAt, repliedAt, freshAiId,
                                                       AiController.Choices(contents), registry);
            && ChatContainer.BubbleSide(Optimistic(me, peer, text, None, now), me) == ChatContainer.ChatEnd
            && ChatContainer.BubbleSide(server.db.messages[|db.messages| + 1], me) == ChatContainer.ChatStart
  {
  }

  /** Avatars follow the bubble sides in the AI conversation: the asker's
      entry shows the asker's picture (or the placeholder), and the stored
      answer shows the AI user's picture, which is the fixed AI avatar when
      the handler had to create that user. */
  lemma AiExchangeAvatars(
    me: User, text: string, now: int,
    db: Db, sentAt: int, repliedAt: int, freshAiId: Id, contents: seq<string>,
    registry: map<Id, AiController.Channel>)
    requires |contents| > 0
    requires me.id != AiController.GetOrCreateAiUser(db, freshAiId).user.id
    ensures var ai := AiController.GetOrCreateAiUser(db, freshAiId);
            var server := AiController.HandleAiMessage(db, me.id, text, sentAt, repliedAt, freshAiId,
                                                       AiController.Choices(contents), registry);
            && ChatContainer.Avatar(Optimistic(me, ai.user, text, None, now), me, ai.user) == PicOrDefault(me.profilePic)
            && ChatContainer.Avatar(server.db.messages[|db.messages| + 1], me, ai.user) == PicOrDefault(ai.user.profilePic)
            && (ai.created ==> ChatContainer.Avatar(server.db.messages[|db.messages| + 1], me, ai.user) == AiController.AiProfilePic)
  {
  }

  /** The page's status texts were written for the server's upload codes:
      every code the server's upload error mapping can produce except the
      generic 500 has its own text on the page. */
  lemma UploadCodesHavePageTexts(e: AuthController.ErrorShape)
    ensures var status := AuthController.MapUploadError(e).status;
            ProfilePage.IsSpecificToast(ProfilePage.ErrorToast(ProfilePage.WithResponse(status))) <==> status != 500
  {
  }

  /** ... but none of them is ever shown for an upload: whatever the server's
      upload error, the page shows the server's own message and then the
      success text, and the store's user is left as it was. */
  lemma UploadErrorsReachPageAsSuccess(
    e: AuthController.ErrorShape, preview: Option<string>, me: User, auth: AuthStore.AuthState,
    file: Option<ProfilePage.FileInfo>, dataUrl: string)
    requires ProfilePage.CheckFile(file) == ProfilePage.Accepted
    ensures var answer := AuthController.MapUploadError(e);
            var reply: Reply<User> := Err(HttpError(Some(ErrorBody(answer.status, answer.body.message))));
            var run := ProfilePage.HandleImageUpload(preview, me, auth, file, ProfilePage.Compressed(dataUrl), reply);
            && run.toasts == [answer.body.message, ProfilePage.SuccessToast]
            && !ProfilePage.IsSpecificToast(run.toasts[0])
            && run.auth.authUser == auth.authUser
  {
  }
}

=== FILE: http.dfy ===
/**
  The client's view of an HTTP call (an axios request): either the response
  data, or an error that may or may not carry a server response.
*/
module Http {
  import opened Domain

  /** `error.response` when present: the status and `data.message` ("" when
      the body has no message). */
  datatype ErrorBody = ErrorBody(status: int, message: string)

  /** An axios error; `response` is None for network failures and for the
      TypeErrors thrown by the client's own code. */
  datatype HttpError = HttpError(response: Option<ErrorBody>)

  datatype Reply<+T> = Ok(data: T) | Err(error: HttpError)

  /** What a `catch` block that reads `error.response.data.message` does: it
      shows that message, or - when the error has no response - the read
      itself throws and nothing is shown. */
  datatype CatchOutcome = Shown(toast: string) | CatchThrew

  /** `toast.error(error.response.data.message || fallback)`; pass "" as the
      fallback for the catch blocks that have none. */
  function ReportError(e: HttpError, fallback: string): (r: CatchOutcome)
    ensures r.CatchThrew? <==> e.response.None?
    ensures r.Shown? && e.response.value.message != "" ==> r.toast == e.response.value.message
    ensures r.Shown? && e.response.value.message == "" ==> r.toast == fallback
  {
    match e.response
    case None => CatchThrew
    case Some(body) => Shown(if body.message != "" then body.message else fallback)
  }

  /** The message a catch block showed, if any. */
  function ToastOf(c: CatchOutcome): Option<string>
  {
    match c
    case Shown(t) => Some(t)
    case CatchThrew => None
  }
}

=== FILE: message_input.dfy ===
/**
  The message composer: its text, image preview and in-flight flag, the send
  guard, the form reset, the image picker check and the controls hidden in
  the AI conversation.
*/
module MessageInput {
  import opened Domain
  import opened Text

  datatype InputState = InputState(text: string, imagePreview: Option<string>, isLoading: bool)

  /** What the composer hands to the chat store's `sendMessage`. */
  datatype Outgoing = Outgoing(text: string, image: Option<string>)

  /** One submit: the state while the send is in flight, the state after it
      settles, what was sent (if anything) and whether an error was shown. */
  datatype Submit = Submit(during: InputState, after: InputState, sent: Option<Outgoing>, errorShown: bool)

  function Empty(): InputState
  {
    InputState("", None, false)
  }

  /** `!text.trim() && !imagePreview`. */
  predicate NothingToSend(st: InputState) {
    Trim(st.text) == [] && st.imagePreview.None?
  }

  /** The submit button's `disabled` attribute: disabled while sending, or
      when the text is whitespace only and there is no image. */
  predicate SubmitDisabled(st: InputState): (r: bool)
    ensures r <==> (Blank(st.text) && st.imagePreview.None?) || st.isLoading
  {
    TrimEmptyIffBlank(st.text);
    NothingToSend(st) || st.isLoading
  }

  /** `handleSendMessage`; `succeeded` says whether the store's
      `sendMessage` resolved (true) or rejected (false). */
  function HandleSendMessage(st: InputState, succeeded: bool): (r: Submit)
    // the button is disabled exactly when the handler would do nothing
    ensures r.sent.Some? <==> !SubmitDisabled(st)
    ensures r.sent.None? ==> r.after == st && r.during == st && !r.errorShown
    // what is sent: the trimmed text with the current preview, never an empty message
    ensures r.sent.Some? ==> r.sent.value == Outgoing(Trim(st.text), st.imagePreview)
    ensures r.sent.Some? ==> r.sent.value.text != [] || r.sent.value.image.Some?
    ensures r.sent.Some? ==> r.during.isLoading && !r.after.isLoading
    // success clears the form; failure keeps it and shows an error
    ensures r.sent.Some? && succeeded ==> r.after == Empty() && !r.errorShown
    ensures r.sent.Some? && !succeeded ==>
      r.after.text == st.text && r.after.imagePreview == st.imagePreview && r.errorShown
  {
    if NothingToSend(st) then Submit(st, st, None, false)
    else if st.isLoading then Submit(st, st, None, false)
    else
      var during := st.(isLoading := true);
      var out := Outgoing(Trim(st.text), st.imagePreview);
      if succeeded then Submit(during, Empty(), Some(out), false)
      else Submit(during, st.(isLoading := false), Some(out), true)
  }

  /** A sent text has no whitespace at either end, and trimming it again
      changes nothing. */
  lemma SentTextIsTrimmed(st: InputState, succeeded: bool)
    requires HandleSendMessage(st, succeeded).sent.Some?
    ensures var t := HandleSendMessage(st, succeeded).sent.value.text;
            Trim(t) == t && (|t| > 0 ==> !IsSpace(t[0]) && !IsSpace(t[|t| - 1]))
  {
  }

  /** A text made only of whitespace and no image is never sent. */
  lemma BlankTextNotSent(st: InputState, succeeded: bool)
    requires Blank(st.text) && st.imagePreview.None?
    ensures HandleSendMessage(st, succeeded).sent.None?
  {
  }

  /** The file picked in the picker: its MIME type. */
  datatype PickedFile = PickedFile(mimeType: string)

  datatype Picked = Picked(state: InputState, errorShown: bool, threw: bool)

  /** `handleImageChange`: a non-image file is refused with an error and the
      preview stays as it was; an image becomes the preview (its data URL
      once the reader finishes). With no file picked, reading its type
      throws. */
  function HandleImageChange(st: InputState, file: Option<PickedFile>, dataUrl: string): (r: Picked)
    ensures file.None? ==> r.state == st && r.threw && !r.errorShown
    ensures file.Some? && !StartsWith(file.value.mimeType, "image/") ==>
      r.state == st && r.errorShown && !r.threw
    ensures r.state.imagePreview != st.imagePreview ==>
      file.Some? && StartsWith(file.value.mimeType, "image/") && r.state.imagePreview == Some(dataUrl)
    ensures file.Some? && StartsWith(file.value.mimeType, "image/") ==>
      r.state.imagePreview == Some(dataUrl) && !r.errorShown && !r.threw
    ensures r.state.text == st.text && r.state.isLoading == st.isLoading
  {
    match file
    case None => Picked(st, false, true)
    case Some(f) =>
      if !StartsWith(f.mimeType, "image/") then Picked(st, true, false)
      else Picked(st.(imagePreview := Some(dataUrl)), false, false)
  }

  /** `removeImage`. */
  function RemoveImage(st: InputState): (r: InputState)
    ensures r.imagePreview.None? && r.text == st.text && r.isLoading == st.isLoading
  {
    st.(imagePreview := None)
  }

  /** Picking a file and then removing the image leaves the composer as if
      only the image had been removed: the text and the in-flight flag
      survive, and no preview remains, whether the file was accepted or
      refused. */
  lemma RemoveUndoesPick(st: InputState, file: PickedFile, dataUrl: string)
    ensures RemoveImage(HandleImageChange(st, Some(file), dataUrl).state) == RemoveImage(st)
    ensures RemoveImage(st) == st.(imagePreview := None)
  {
  }

  /** The picker and the image button are rendered unless the AI is the
      selected user. */
  predicate ImageControlsShown(selected: Option<User>) {
    !(selected.Some? && selected.value.isAI)
  }

  /** The preview thumbnail is rendered when there is a preview and the
      selected user is not the AI. */
  predicate PreviewShown(st: InputState, selected: Option<User>) {
    st.imagePreview.Some? && ImageControlsShown(selected)
  }

  /** In the AI conversation no image control and no preview is visible,
      whatever the composer holds. */
  lemma AiConversationHidesImages(st: InputState, selected: Option<User>)
    requires selected.Some? && selected.value.isAI
    ensures !ImageControlsShown(selected) && !PreviewShown(st, selected)
  {
  }
}

=== FILE: profile_page.dfy ===
/**
  The profile page's picture upload: the file checks, the resize rule used
  before encoding, the error-to-message mapping and the preview reset, and
  the whole handler composed with the auth store's `updateProfile`.
*/
module ProfilePage {
  import opened Domain
  import opened Text
  import opened Http
  import AuthStore

  const MaxFileSize: int := 1048576
  const MaxDimension: int := 400

  /** The picked file's size in bytes and MIME type. */
  datatype FileInfo = FileInfo(size: int, mimeType: string)

  datatype FileCheck = NoFile | TooLarge | NotImage | Accepted

  /** The guards at the top of `handleImageUpload`: no file, then size, then
      type. */
  function CheckFile(file: Option<FileInfo>): (r: FileCheck)
    ensures r == NoFile <==> file.None?
    ensures r == TooLarge <==> file.Some? && file.value.size > MaxFileSize
    ensures r == NotImage <==>
      file.Some? && file.value.size <= MaxFileSize && !StartsWith(file.value.mimeType, "image/")
    ensures r == Accepted <==>
      file.Some? && file.value.size <= MaxFileSize && StartsWith(file.value.mimeType, "image/")
  {
    match file
    case None => NoFile
    case Some(f) =>
      if f.size > MaxFileSize then TooLarge
      else if !StartsWith(f.mimeType, "image/") then NotImage
      else Accepted
  }

  /** The size check comes first: an oversized file is refused as too large
      whatever its type, and shrinking an accepted file keeps it accepted. */
  lemma SizeCheckedFirst(f: FileInfo, g: FileInfo)
    ensures f.size > MaxFileSize ==> CheckFile(Some(f)) == TooLarge
    ensures CheckFile(Some(f)) == Accepted && g.mimeType == f.mimeType && g.size <= f.size ==>
      CheckFile(Some(g)) == Accepted
  {
  }

  /** `Math.round(a / b)` for `a >= 0`, `b > 0`: the nearest integer, halves
      rounded up. */
  function RoundDiv(a: int, b: int): (r: int)
    requires a >= 0 && b > 0
    ensures r >= 0
    ensures 2 * a - b < 2 * b * r <= 2 * a + b
  {
    var r := (2 * a + b) / (2 * b);
    assert 2 * b * r <= 2 * a + b < 2 * b * r + 2 * b;
    r
  }

  /** The width and height `compressImage` draws at: the longer side is
      brought down to 400 keeping the aspect ratio; images within 400 are
      left alone. Ties (`width == height`) take the height branch. */
  function Resize(width: int, height: int): (r: (int, int))
    requires width > 0 && height > 0
    ensures width <= MaxDimension && height <= MaxDimension ==> r == (width, height)
    ensures width > height && width > MaxDimension ==>
      r == (MaxDimension, RoundDiv(height * MaxDimension, width))
    ensures width <= height && height > MaxDimension ==>
      r == (RoundDiv(width * MaxDimension, height), MaxDimension)
  {
    if width > height then
      if width > MaxDimension then (MaxDimension, RoundDiv(height * MaxDimension, width))
      else (width, height)
    else
      if height > MaxDimension then (RoundDiv(width * MaxDimension, height), MaxDimension)
      else (width, height)
  }

  /** For positive dimensions: both results fit in 400, neither grows, small
      images are unchanged, a large image's longer side becomes exactly 400,
      and the other side is the rounded proportional one. */
  lemma ResizeBounds(width: int, height: int)
    requires width > 0 && height > 0
    ensures var (w, h) := Resize(width, height);
            && 0 <= w <= MaxDimension && 0 <= h <= MaxDimension
            && w <= width && h <= height
            && (width <= MaxDimension && height <= MaxDimension ==> (w, h) == (width, height))
            && (width > height && width > MaxDimension ==>
                  w == MaxDimension && 2 * height * MaxDimension - width < 2 * width * h <= 2 * height * MaxDimension + width)
            && (width <= height && height > MaxDimension ==>
                  h == MaxDimension && 2 * width * MaxDimension - height < 2 * height * w <= 2 * width * MaxDimension + height)
  {
    var (w, h) := Resize(width, height);
    if width > height && width > MaxDimension {
      ScaledSide(height, width);
    } else if width <= height && height > MaxDimension {
      ScaledSide(width, height);
    }
  }

  /** The rounded side `round(short * 400 / long)` of a long side above 400
      is at most 400 and at most the short side. */
  lemma ScaledSide(short: int, long: int)
    requires 0 < short <= long && long > MaxDimension
    ensures RoundDiv(short * MaxDimension, long) <= MaxDimension
    ensures RoundDiv(short * MaxDimension, long) <= short
  {
    var r := RoundDiv(short * MaxDimension, long);
    assert 2 * long * r <= 2 * short * MaxDimension + long;
    if r > MaxDimension {
      MulLeq(MaxDimension + 1, r, 2 * long);
      MulLeq(short, long, 2 * MaxDimension);
      assert false;
    }
    if r > short {
      MulLeq(short + 1, r, 2 * long);
      MulLeq(MaxDimension + 1, long, 2 * short);
      assert false;
    }
  }

  lemma MulLeq(a: int, b: int, c: int)
    requires a <= b && c >= 0
    ensures a * c <= b * c
  {
  }

  /** The error as the page's catch block sees it: a response with a
      status, or an error without one and its message. */
  datatype UploadError = WithResponse(status: int) | WithoutResponse(message: string)

  const GenericFailure: string := "Failed to upload image. Please try again."

  /** The toast for an upload error: four statuses and one message get a
      specific text, everything else the generic one. */
  function ErrorToast(e: UploadError): (r: string)
    ensures r == GenericFailure <==>
      (e.WithResponse? && e.status !in {408, 413, 400, 404}) || (e.WithoutResponse? && e.message != "Upload timeout")
    ensures e.WithResponse? && e.status == 408 ==> r == "Upload timed out. Please try a smaller image."
    ensures e.WithResponse? && e.status == 413 ==> r == "Image file is too large. Please try a smaller image."
    ensures e.WithResponse? && e.status == 400 ==> r == "Invalid image format. Please try a different image."
    ensures e.WithResponse? && e.status == 404 ==> r == "User not found. Please try logging in again."
    ensures e == WithoutResponse("Upload timeout") ==> r == "Upload took too long. Please try a smaller image."
  {
    match e
    case WithResponse(status) =>
      if status == 408 then "Upload timed out. Please try a smaller image."
      else if status == 413 then "Image file is too large. Please try a smaller image."
      else if status == 400 then "Invalid image format. Please try a different image."
      else if status == 404 then "User not found. Please try logging in again."
      else GenericFailure
    case WithoutResponse(message) =>
      if message == "Upload timeout" then "Upload took too long. Please try a smaller image."
      else GenericFailure
  }

  /** The toasts that name a specific cause. */
  predicate IsSpecificToast(t: string) {
    t in {"Upload timed out. Please try a smaller image.", "Image file is too large. Please try a smaller image.",
          "Invalid image format. Please try a different image.", "User not found. Please try logging in again.",
          "Upload took too long. Please try a smaller image."}
  }

  /** The preview after an error: the current picture or the placeholder. */
  function PreviewAfterError(me: User): (r: string)
    ensures r != ""
    ensures me.profilePic != "" ==> r == me.profilePic
    ensures me.profilePic == "" ==> r == DefaultAvatar
  {
    PicOrDefault(me.profilePic)
  }

  /** Outcome of the canvas encoding step. */
  datatype Compression = Compressed(dataUrl: string) | CompressFailed(message: string)

  /** One run of `handleImageUpload`: the preview afterwards, the auth store
      afterwards, the toasts in order and the picture sent to the store (if
      any). */
  datatype UploadRun = UploadRun(preview: Option<string>, auth: AuthStore.AuthState, toasts: seq<string>, sent: Option<string>)

  const SuccessToast: string := "Profile picture updated successfully! \U{1F389}"

  /** `handleImageUpload` for the user `me` the page was rendered with. */
  function HandleImageUpload(
    preview: Option<string>, me: User, auth: AuthStore.AuthState, file: Option<FileInfo>,
    compression: Compression, reply: Reply<User>): (r: UploadRun)
    ensures CheckFile(file) != Accepted ==> r.auth == auth && r.preview == preview && r.sent.None?
    ensures CheckFile(file) == NoFile ==> r.toasts == []
    ensures CheckFile(file) == TooLarge ==> r.toasts == ["File size should be less than 1MB"]
    ensures CheckFile(file) == NotImage ==> r.toasts == ["Please select an image file"]
    ensures r.sent.Some? ==> CheckFile(file) == Accepted && compression == Compressed(r.sent.value)
    // an accepted file whose encoding fails: nothing is sent, the preview resets
    ensures CheckFile(file) == Accepted && compression.CompressFailed? ==>
      && r.sent.None? && r.auth == auth
      && r.preview == Some(PreviewAfterError(me))
      && r.toasts == [ErrorToast(WithoutResponse(compression.message))]
    // an accepted, encoded file is always sent, and the store's update decides the auth state
    ensures CheckFile(file) == Accepted && compression.Compressed? ==>
      && r.sent == Some(compression.dataUrl)
      && r.auth == AuthStore.UpdateProfile(auth, reply).state
    // the store's catch block failed (no response): the preview resets, the generic text shows
    ensures CheckFile(file) == Accepted && compression.Compressed? && reply.Err? && reply.error.response.None? ==>
      r.preview == Some(PreviewAfterError(me)) && r.toasts == [GenericFailure]
    // otherwise the page resolves: the preview is the encoded image and the success text comes last
    ensures CheckFile(file) == Accepted && compression.Compressed? && reply.Ok? ==>
      r.preview == Some(compression.dataUrl) && r.toasts == [SuccessToast]
    ensures CheckFile(file) == Accepted && compression.Compressed? && reply.Err? && reply.error.response.Some? ==>
      && r.preview == Some(compression.dataUrl)
      && r.toasts == [ToastOf(ReportError(reply.error, "")).value, SuccessToast]
  {
    match CheckFile(file)
    case NoFile => UploadRun(preview, auth, [], None)
    case TooLarge => UploadRun(preview, auth, ["File size should be less than 1MB"], None)
    case NotImage => UploadRun(preview, auth, ["Please select an image file"], None)
    case Accepted =>
      match compression
      case CompressFailed(msg) =>
        UploadRun(Some(PreviewAfterError(me)), auth, [ErrorToast(WithoutResponse(msg))], None)
      case Compressed(dataUrl) =>
        var step := AuthStore.UpdateProfile(auth, reply);
        var storeToasts := if step.toast.Some? then [step.toast.value] else [];
        if step.threw then
          // the store's own catch block failed; its TypeError has no response
          UploadRun(Some(PreviewAfterError(me)), step.state, storeToasts + [ErrorToast(WithoutResponse(""))], Some(dataUrl))
        else
          // the store resolves to undefined, so the returned picture is never read
          UploadRun(Some(dataUrl), step.state, storeToasts + [SuccessToast], Some(dataUrl))
  }

  /** The status switch is never reached from this handler: the auth store
      reports server rejections itself and resolves, so no run shows one of
      the status-specific texts for a server answer. */
  lemma ServerStatusNeverReachesSwitch(
    preview: Option<string>, me: User, auth: AuthStore.AuthState, file: Option<FileInfo>,
    dataUrl: string, reply: Reply<User>)
    requires reply.Err? && reply.error.response.Some?
    requires !IsSpecificToast(reply.error.response.value.message)
    ensures var r := HandleImageUpload(preview, me, auth, file, Compressed(dataUrl), reply);
            forall i :: 0 <= i < |r.toasts| ==> !IsSpecificToast(r.toasts[i])
  {
  }

  /** A rejected upload still ends with the success toast, after the
      server's message, and keeps the local preview. */
  lemma RejectedUploadStillReportsSuccess(
    preview: Option<string>, me: User, auth: AuthStore.AuthState, file: Option<FileInfo>,
    dataUrl: string, status: int, message: string)
    requires CheckFile(file) == Accepted
    ensures var reply: Reply<User> := Err(HttpError(Some(ErrorBody(status, message))));
            var r := HandleImageUpload(preview, me, auth, file, Compressed(dataUrl), reply);
            && r.toasts == [message, SuccessToast]
            && r.preview == Some(dataUrl)
            && r.auth.authUser == auth.authUser
  {
  }
}

=== FILE: server.dfy ===
/**
  Server-side records shared by the controllers: the persisted store (users
  with their password hashes, and the append-only message log) and the JSON
  responses the handlers send.
*/
module Server {
  import opened Domain

  /** A stored user: the public part plus the password hash. */
  datatype UserRecord = UserRecord(user: User, passwordHash: string)

  /** The durable store. Messages are kept in insertion order; a message's
      key is its position in the log. */
  datatype Db = Db(users: seq<UserRecord>, messages: seq<Message>)

  /** The four fields signup and login answer with; no password. */
  datatype PublicUser = PublicUser(id: Id, fullName: string, email: string, profilePic: string)

  datatype Body =
    | ErrorJson(message: string)
    | SignupJson(user: PublicUser)
    | LoginJson(user: PublicUser, note: string)
    | UserJson(profile: User)
    | MessageJson(msg: Message)

  datatype Response = Response(status: int, body: Body)

  function Public(u: User): PublicUser
  {
    PublicUser(u.id, u.fullName, u.email, u.profilePic)
  }

  /** Persists a message: it is stored at the end of the log with its
      position as key, and the stored copy is returned. */
  function Append(db: Db, m: Message): (r: (Db, Message))
    ensures r.0.users == db.users
    ensures r.0.messages == db.messages + [r.1]
    ensures r.1 == m.(key := Stored(|db.messages|))
  {
    var stored := m.(key := Stored(|db.messages|));
    (db.(messages := db.messages + [stored]), stored)
  }

  /** Index of the first user whose email is `email` (`findOne({email})`). */
  function FindByEmail(users: seq<UserRecord>, email: string): (r: Option<nat>)
    ensures r.Some? ==> r.value < |users| && users[r.value].user.email == email
    ensures r.Some? ==> forall j :: 0 <= j < r.value ==> users[j].user.email != email
    ensures r.None? <==> forall j :: 0 <= j < |users| ==> users[j].user.email != email
    decreases |users|
  {
    if |users| == 0 then None
    else if users[0].user.email == email then Some(0)
    else match FindByEmail(users[1..], email)
      case None => None
      case Some(k) => Some(k + 1)
  }

  /** Index of the first user whose id is `id` (`findByIdAndUpdate`). */
  function FindById(users: seq<UserRecord>, id: Id): (r: Option<nat>)
    ensures r.Some? ==> r.value < |users| && users[r.value].user.id == id
    ensures r.None? <==> forall j :: 0 <= j < |users| ==> users[j].user.id != id
    decreases |users|
  {
    if |users| == 0 then None
    else if users[0].user.id == id then Some(0)
    else match FindById(users[1..], id)
      case None => None
      case Some(k) => Some(k + 1)
  }
}

=== FILE: sidebar.dfy ===
/**
  The contact sidebar's decisions: which users are listed, how many are
  reported online, which item is highlighted and when the empty notice shows.
*/
module Sidebar {
  import opened Domain
  import ChatStore

  /** `users.filter(u => onlineUsers.includes(u._id))`. */
  function OnlineOnly(users: seq<User>, online: seq<Id>): (r: seq<User>)
    ensures |r| <= |users|
    ensures forall u :: u in r <==> u in users && u.id in online
    decreases |users|
  {
    if users == [] then []
    else (if users[0].id in online then [users[0]] else []) + OnlineOnly(users[1..], online)
  }

  /** The list the sidebar renders: everyone, or with the toggle on exactly
      the users whose id is in the roster. */
  function FilteredUsers(users: seq<User>, online: seq<Id>, showOnlineOnly: bool): (r: seq<User>)
    ensures !showOnlineOnly ==> r == users
    ensures showOnlineOnly ==> forall u :: u in r <==> u in users && IsOnline(u, online)
  {
    if showOnlineOnly then OnlineOnly(users, online) else users
  }

  /** `a` is `b` with some elements removed and the rest in their order. */
  predicate IsSubsequence<T(==)>(a: seq<T>, b: seq<T>)
    decreases |b|
  {
    if a == [] then true
    else if b == [] then false
    else if a[0] == b[0] then IsSubsequence(a[1..], b[1..])
    else IsSubsequence(a, b[1..])
  }

  /** Adding an element in front of `b` keeps `a` a subsequence of it. */
  lemma {:induction false} SubsequenceOfTail<T>(a: seq<T>, b: seq<T>)
    requires b != [] && IsSubsequence(a, b[1..])
    ensures IsSubsequence(a, b)
    decreases |b|, 0
  {
    if a != [] && a[0] == b[0] {
      SubsequenceDropHead(a, b[1..]);
    }
  }

  /** Removing the first element of `a` keeps it a subsequence of `b`. */
  lemma {:induction false} SubsequenceDropHead<T>(a: seq<T>, b: seq<T>)
    requires a != [] && IsSubsequence(a, b)
    ensures IsSubsequence(a[1..], b)
    decreases |b|, 1
  {
    if a[0] != b[0] {
      SubsequenceDropHead(a, b[1..]);
    }
    if a[1..] != [] {
      SubsequenceOfTail(a[1..], b);
    }
  }

  /** Whatever the toggle, the rendered list keeps the users' order and only
      leaves users out. */
  lemma {:induction false} FilteredIsSubsequence(users: seq<User>, online: seq<Id>, showOnlineOnly: bool)
    ensures IsSubsequence(FilteredUsers(users, online, showOnlineOnly), users)
  {
    if showOnlineOnly {
      OnlineOnlyIsSubsequence(users, online);
    } else {
      SubsequenceRefl(users);
    }
  }

  lemma {:induction false} SubsequenceRefl<T>(a: seq<T>)
    ensures IsSubsequence(a, a)
    decreases |a|
  {
    if a != [] {
      SubsequenceRefl(a[1..]);
    }
  }

  lemma {:induction false} OnlineOnlyIsSubsequence(users: seq<User>, online: seq<Id>)
    ensures IsSubsequence(OnlineOnly(users, online), users)
    decreases |users|
  {
    if users != [] {
      var rest := OnlineOnly(users[1..], online);
      OnlineOnlyIsSubsequence(users[1..], online);
      if users[0].id in online {
        assert OnlineOnly(users, online) == [users[0]] + rest;
        assert ([users[0]] + rest)[1..] == rest;
      } else {
        assert OnlineOnly(users, online) == rest;
        SubsequenceOfTail(rest, users);
      }
    }
  }

  /** With the toggle on, each online user is listed exactly as often as in
      `users`, and offline users not at all. */
  lemma {:induction false} OnlineOnlyKeepsMultiplicity(users: seq<User>, online: seq<Id>, u: User)
    ensures multiset(OnlineOnly(users, online))[u] == (if u.id in online then multiset(users)[u] else 0)
    decreases |users|
  {
    if users != [] {
      OnlineOnlyKeepsMultiplicity(users[1..], online, u);
      assert users == [users[0]] + users[1..];
      assert multiset(users) == multiset([users[0]]) + multiset(users[1..]);
    }
  }

  /** `Math.max(0, onlineUsers.length - 1)`: the roster size without the
      viewer's own entry. */
  function OnlineCount(online: seq<Id>): (r: nat)
    ensures r < |online| || |online| == 0
  {
    if |online| - 1 > 0 then |online| - 1 else 0
  }

  predicate NoDuplicates<T(==)>(s: seq<T>) {
    forall i, j :: 0 <= i < j < |s| ==> s[i] != s[j]
  }

  lemma {:induction false} DistinctCardinality<T>(s: seq<T>)
    requires NoDuplicates(s)
    ensures |set x | x in s| == |s|
    decreases |s|
  {
    if s != [] {
      var t := s[..|s| - 1];
      DistinctCardinality(t);
      assert (set x | x in s) == (set x | x in t) + {s[|s| - 1]};
      assert s[|s| - 1] !in (set x | x in t);
    }
  }

  /** When the roster holds distinct ids including the viewer's, the count
      shown is the number of OTHER online participants. */
  lemma OnlineCountExcludesSelf(online: seq<Id>, me: Id)
    requires NoDuplicates(online) && me in online
    ensures OnlineCount(online) == |(set x | x in online) - {me}|
  {
    DistinctCardinality(online);
  }

  predicate IsSelected(u: User, selected: Option<User>) {
    selected.Some? && selected.value.id == u.id
  }

  /** `onlineUsers.includes(user._id)`: some roster entry equals the id. */
  predicate IsOnline(u: User, online: seq<Id>): (r: bool)
    ensures r <==> exists i :: 0 <= i < |online| && online[i] == u.id
  {
    u.id in online
  }

  /** Choosing a contact in the store highlights exactly the items with
      that contact's id; clearing the selection highlights none. */
  lemma HighlightFollowsSelection(chat: ChatStore.ChatState, chosen: User, item: User)
    ensures IsSelected(item, ChatStore.SetSelectedUser(chat, Some(chosen)).selectedUser) <==> item.id == chosen.id
    ensures !IsSelected(item, ChatStore.SetSelectedUser(chat, None).selectedUser)
  {
  }

  /** When ids are distinct, at most one listed item is highlighted. */
  lemma AtMostOneSelected(users: seq<User>, selected: Option<User>)
    requires forall i, j :: 0 <= i < j < |users| ==> users[i].id != users[j].id
    ensures forall i, j :: 0 <= i < |users| && 0 <= j < |users| && IsSelected(users[i], selected) && IsSelected(users[j], selected) ==> i == j
  {
  }

  predicate ShowsEmptyNotice(shown: seq<User>) {
    |shown| == 0
  }

  /** The "No online users" notice appears exactly when no listed user
      exists: with the toggle on, when no user is online. */
  lemma EmptyNoticeIff(users: seq<User>, online: seq<Id>, showOnlineOnly: bool)
    ensures ShowsEmptyNotice(FilteredUsers(users, online, showOnlineOnly)) <==>
      forall i :: 0 <= i < |users| ==> showOnlineOnly && !IsOnline(users[i], online)
  {
    var r := FilteredUsers(users, online, showOnlineOnly);
    if !ShowsEmptyNotice(r) && showOnlineOnly {
      assert r[0] in r;
    }
    if ShowsEmptyNotice(r) && showOnlineOnly {
      forall i | 0 <= i < |users|
        ensures !IsOnline(users[i], online)
      {
        assert users[i] in users;
      }
    }
  }
}

=== FILE: text.dfy ===
/**
  String helpers the client code relies on: `String.prototype.trim` and
  `String.prototype.startsWith`. Strings are sequences of characters; the
  whitespace class is the ASCII one plus the few Unicode spaces listed in
  `IsSpace`.
*/
module Text {

  /** Characters that `trim` strips from both ends. */
  predicate IsSpace(c: char) {
    c == ' ' || c == '\t' || c == '\n' || c == '\r'
    || c == '\U{000B}' || c == '\U{000C}' || c == '\U{00A0}'
    || c == '\U{2028}' || c == '\U{2029}' || c == '\U{FEFF}'
  }

  predicate Blank(s: string) {
    forall i :: 0 <= i < |s| ==> IsSpace(s[i])
  }

  /** Drops leading whitespace: the result is a suffix of `s` and everything
      dropped was whitespace. */
  function TrimStart(s: string): (r: string)
    ensures |r| <= |s| && r == s[|s| - |r|..]
    ensures forall i :: 0 <= i < |s| - |r| ==> IsSpace(s[i])
    ensures |r| > 0 ==> !IsSpace(r[0])
  {
    if |s| > 0 && IsSpace(s[0]) then TrimStart(s[1..]) else s
  }

  /** Drops trailing whitespace: the result is a prefix of `s` and everything
      dropped was whitespace. */
  function TrimEnd(s: string): (r: string)
    ensures |r| <= |s| && r == s[..|r|]
    ensures forall i :: |r| <= i < |s| ==> IsSpace(s[i])
    ensures |r| > 0 ==> !IsSpace(r[|r| - 1])
  {
    if |s| > 0 && IsSpace(s[|s| - 1]) then TrimEnd(s[..|s| - 1]) else s
  }

  /** `s.trim()`. */
  function Trim(s: string): (r: string)
    ensures |r| <= |s|
    ensures |r| > 0 ==> !IsSpace(r[0]) && !IsSpace(r[|r| - 1])
  {
    TrimEnd(TrimStart(s))
  }

  /** `s.trim()` is empty exactly when `s` consists of whitespace only: this is
      what makes `!text.trim()` a "nothing to send" test. */
  lemma TrimEmptyIffBlank(s: string)
    ensures Trim(s) == [] <==> Blank(s)
  {
  }

  /** Trimming twice is trimming once. */
  lemma TrimIdempotent(s: string)
    ensures Trim(Trim(s)) == Trim(s)
  {
    var r := Trim(s);
    if |r| > 0 {
      assert TrimStart(r) == r;
      assert TrimEnd(r) == r;
    }
  }

  /** `s.startsWith(prefix)`. */
  predicate StartsWith(s: string, prefix: string) {
    |prefix| <= |s| && s[..|prefix|] == prefix
  }
}
